=== FILE: README.md ===
# KSEB chat-bot server: meeting-slot engine and pure tool helpers, in Dafny

This project models the logic of the KSEB chat-bot server that does not
depend on I/O, and proves properties of it.

The main part is the meeting-time recommender `_find_available_slots` in
`src/agent/tools/schedule_tool.py`. Given a bundle of personal and group
calendar events, a search window and a meeting length, it works in four
stages:

1. It turns every event into a busy interval.
2. It sorts the busy intervals and merges the overlapping ones.
3. It walks a cursor through the business hours, 09:00 to 22:00, in
   30-minute steps, jumping to the end of any busy interval in the way,
   and collects the free slots it lands on.
4. It picks up to nine recommendations spread over dates and over
   morning and afternoon.

Its caller, `recommend_meeting_time`, sets the window from midnight of the
start date for a number of days.

The smaller modules model these pure steps of the agent's other tools:

- **Web search.** The query expansion, URL de-duplication and type labels
  of `advanced_web_search`.
- **Web reader.** The fixed-size text chunking of `fetch_text_chunks` and
  the error wrapper of `read_web_page`.
- **Deep search.** The link filter, truncation and block assembly of
  `DeepSearchTool._run`.
- **Download.** The file-name check of the download route.
- **Security.** The claim check of `get_current_user_id` after the JWT is
  decoded.

Timestamps are integer seconds of naive local time:

- the date of `t` is `t / 86400` and its hour is `(t % 86400) / 3600`;
- `datetime.replace(hour=h, minute=0)` keeps the seconds, so it is
  `date * 86400 + h * 3600 + t % 60`.

Modules, one per file:

| module | file | models |
|---|---|---|
| `Basics` | basics.dfy | `Option`, `Result`, substring search, Python `strip`, `join`, `s[:n]` |
| `Clock` | clock.dfy | date and hour arithmetic on seconds |
| `Intervals` | intervals.dfy | `(start, end)` pairs, the overlap test, sortedness |
| `Events` | events.dfy | stage 1: event records to busy intervals |
| `Merge` | merge.dfy | stage 2: stable sort by start and merge on strict overlap |
| `SlotWalk` | walk.dfy | stage 3: the cursor walk, as written and corrected |
| `WalkCompleteness` | completeness.dfy | stage 3: every slot that fits is found by the walk, up to the 30-minute grid |
| `Diversifier` | diversify.dfy | stage 4: per-date morning/afternoon picks, fill-in, cap 9 |
| `Scheduler` | scheduler.dfy | the whole pipeline and the search window |
| `WebSearch` | websearch.dfy | `advanced_web_search` around the search backend |
| `WebReader` | webreader.dfy | `fetch_text_chunks` split, `read_web_page` |
| `DeepSearch` | deepsearch.dfy | `DeepSearchTool._run` around search and scrape |
| `Download` | download.dfy | `download_file` and the generated file names |
| `Security` | security.dfy | `get_current_user_id` after decoding |

Two behaviours of the source that a reader may not expect:

- **Unparsable timestamps.** An event whose chosen start and end
  timestamps are both present, one of them not ISO-8601, makes
  `datetime.fromisoformat` raise, which aborts the whole call
  (schedule_tool.py:177-178). An event missing either timestamp is
  skipped first; an event with an unparsable one is not skipped.
  `Events.Normalize` returns a `Failure`, and
  `Scheduler.FindAvailableSlots` passes it on.
- **Falsy id claims.** The id is chosen as `userId or id or sub`, and only
  `None` is refused (security.py:30-34). When all three are falsy, the
  chain yields the value of `sub`. So a present but falsy `sub`, such as
  `0` or `False`, is accepted as user 0. An empty string raises
  `ValueError` in `int`. Neither case gives a 401
  (`Security.FalsySubPassesCheck`).

## Model

| member | source | states |
|---|---|---|
| Events.EventInterval | src/agent/tools/schedule_tool.py:170-186 | an event yields an interval iff its chosen start (`start`, else `startDatetime`) and end are both present; it fails iff both are present and one is unparsable; an all-day event covers 09:00:00 to 22:00:00 of its start date; any other event keeps its own start and end |
| Events.NormalizeSpec | src/agent/tools/schedule_tool.py:170-186 | the batch fails exactly when some event fails; otherwise it is every event's contribution in event order |
| Events.ContributionsSpec | src/agent/tools/schedule_tool.py:170-186 | an interval is busy iff some event with both timestamps yields it; there are no more intervals than events |
| Events.BundleEventsSpec | src/agent/tools/schedule_tool.py:161-167 | the records are exactly those of the non-empty camel-case lists and of the snake-case lists whose camel-case partner is empty; the chosen personal list is a prefix and the chosen group list a suffix; a `data` wrapper changes nothing |
| Events.CamelHidesSnake | src/agent/tools/schedule_tool.py:164-165 | with both camel-case lists non-empty, the snake-case lists do not matter |
| Merge.SortPermutes | src/agent/tools/schedule_tool.py:192 | sorting keeps the multiset of intervals |
| Merge.SortSorted | src/agent/tools/schedule_tool.py:192 | the sorted list is ordered by start |
| Merge.SortStable | src/agent/tools/schedule_tool.py:192 | intervals with equal starts keep their input order, as Python's stable sort does |
| Merge.MergeSpec | src/agent/tools/schedule_tool.py:189-199 | the merge is empty iff the input is; each merged interval ends no later than the next one starts; it is no longer than the input; every input interval lies inside some merged interval; every merged start and end is an input start and end; the merged list covers exactly the points the input covers |
| Merge.MergeProper | src/agent/tools/schedule_tool.py:189-199 | merging intervals that end after they start gives intervals that end after they start |
| Merge.MergeExamples | src/agent/tools/schedule_tool.py:196-199 | overlapping intervals fuse; touching intervals (one ends where the next starts) stay separate; empty input gives empty output |
| Merge.LoopSeparated | src/agent/tools/schedule_tool.py:194-199 | the merge loop keeps the accumulated list separated when fed intervals sorted by start |
| Merge.LoopCovers | src/agent/tools/schedule_tool.py:194-199 | the merge loop neither gains nor loses a covered point |
| Merge.LoopContains | src/agent/tools/schedule_tool.py:194-199 | each interval the loop consumes ends up inside some output interval |
| SlotWalk.FirstCollision | src/agent/tools/schedule_tool.py:209-215 | no answer iff the slot overlaps no busy interval; otherwise the answer is the end of the first overlapping interval, strictly after the cursor |
| SlotWalk.Clamp | src/agent/tools/schedule_tool.py:221-222 | the cursor never moves back and stays on its date with hour at least 9; if it moves, it lands on 09:00 with its seconds kept |
| SlotWalk.Advance | src/agent/tools/schedule_tool.py:229-231 | the cursor always moves forward and keeps its seconds; when 30 minutes on is still before 22:00 it is exactly 30 minutes on, otherwise it is 09:00 of the next date |
| SlotWalk.Iterate | src/agent/tools/schedule_tool.py:205-231 | one pass moves the cursor strictly forward and emits at most one slot; a collision emits nothing and jumps to the busy end; without a collision the cursor moves to one step after the clamped cursor, and a slot at the clamped cursor is emitted iff it ends by 22:00 of the date; an emitted slot has the requested length and lies within 09:00-22:00 of the cursor's date; from a cursor at or after 09:00 the clamp does not fire, the slot starts at the cursor, overlaps no busy interval, and the pass equals the corrected pass; from a cursor before 09:00 the slot starts at the clamped 09:00 |
| SlotWalk.Walk | src/agent/tools/schedule_tool.py:203-231 | every slot has the requested length, lies within business hours and starts no earlier than the first cursor; slot starts strictly increase; a slot not starting at 09:00 cannot come from the clamp and is free of the busy list (09:00 slots are free too when the first cursor is at or after 09:00 and before 23:30 and every busy end is too: `SlotWalk.WalkAgrees`; that slots are found at all is `WalkCompleteness.WalkFinds`) |
| SlotWalk.AdvanceRegular | src/agent/tools/schedule_tool.py:229-231 | from a cursor at or after 09:00 and before 23:30, the step lands at or after 09:00 and before 23:30 again, so the next clamp cannot fire |
| SlotWalk.IterateRegular | src/agent/tools/schedule_tool.py:205-231 | when every busy interval ends at or after 09:00 and before 23:30 of its date, one pass from such a cursor leaves the cursor such a cursor |
| SlotWalk.WalkAgrees | src/agent/tools/schedule_tool.py:203-231 | from such a cursor, and with every busy end at or after 09:00 and before 23:30, the walk as written equals the corrected walk, so every slot, 09:00 ones included, is free |
| SlotWalk.WalkBeforeEnd | src/agent/tools/schedule_tool.py:203-231 | with a midnight as the search end, every slot starts before it, since the walk emits slots on the cursor's own date only |
| SlotWalk.IterateRetest | src/agent/tools/schedule_tool.py:205-231 | the corrected pass: a collision jumps to the busy end; without one, a cursor before 09:00 moves to 09:00 and emits nothing, so that it is tested again; a cursor at or after 09:00 moves one step and emits its own slot iff it ends by 22:00; every emitted slot is free of every busy interval |
| SlotWalk.WalkRetest | src/agent/tools/schedule_tool.py:203-231 | the corrected walk: every emitted slot is free of every busy interval, in business hours and in chronological order (that slots are found is `WalkCompleteness.WalkRetestFinds`) |
| SlotWalk.WalkRetestBeforeEnd | src/agent/tools/schedule_tool.py:203-231 | the corrected walk also starts every slot before a midnight search end |
| WalkCompleteness.JumpBeforeFit | src/agent/tools/schedule_tool.py:209-215 | jumping to the end of the first colliding busy interval never passes a later start whose meeting is free |
| WalkCompleteness.ClampBeforeFit | src/agent/tools/schedule_tool.py:221-222 | the clamp to 09:00 never passes a whole-minute time at or after 09:00 |
| WalkCompleteness.AdvanceBeforeNextOpening | src/agent/tools/schedule_tool.py:229-231 | from a whole-minute cursor, the step lands no later than 09:00 of the following date, so it never skips a whole day's opening hours |
| WalkCompleteness.StepStaysOnDate | src/agent/tools/schedule_tool.py:229-231 | a time at or after 09:00 that a step from a whole-minute cursor passes over lies on the cursor's own date |
| WalkCompleteness.StepPastFit | src/agent/tools/schedule_tool.py:224-231 | a step from a whole-minute cursor at or after 09:00 passes a fitting whole-minute start only if that start is less than 30 minutes after the cursor, on its date, so the cursor's own meeting also ends by 22:00 |
| WalkCompleteness.IterateFinds | src/agent/tools/schedule_tool.py:205-231 | one pass from a whole-minute cursor at or before a fitting start either stays at or before it, or emits a slot starting less than 30 minutes before it; the next cursor is a whole minute again |
| WalkCompleteness.IterateRetestFinds | src/agent/tools/schedule_tool.py:205-231 | the same for the corrected pass |
| WalkCompleteness.WalkFinds | src/agent/tools/schedule_tool.py:201-231 | for a positive length, from a whole-minute cursor over busy intervals ending on whole minutes, every fitting whole-minute start before the window end has an emitted slot starting less than 30 minutes before it |
| WalkCompleteness.WalkRetestFinds | src/agent/tools/schedule_tool.py:201-231 | the same for the corrected walk |
| Diversifier.SortedDays | src/agent/tools/schedule_tool.py:238-253 | the sorted keys are exactly the dates of the candidates, strictly increasing |
| Diversifier.FirstInSpec | src/agent/tools/schedule_tool.py:243-249 | a date-and-half bucket is empty iff no candidate falls in it; otherwise its first element is the earliest candidate in it |
| Diversifier.Phase1IsCappedPicks | src/agent/tools/schedule_tool.py:256-265 | the date loop, with its two early exits, equals the per-date picks capped at nine |
| Diversifier.FillIsCappedUnpicked | src/agent/tools/schedule_tool.py:268-275 | the fill-in loop equals the not-yet-picked candidates, in order, after the picks, capped at nine |
| Diversifier.DiversifyShape | src/agent/tools/schedule_tool.py:234-275 | a recommendation list is the capped picks followed by the capped unpicked candidates |
| Diversifier.PicksSpec | src/agent/tools/schedule_tool.py:256-265 | every pick is the earliest candidate of its bucket; picks go strictly by date and morning before afternoon; every non-empty bucket is picked |
| Diversifier.UnpickedMembers | src/agent/tools/schedule_tool.py:268-273 | the fill-in candidates are exactly the candidates whose start was not picked |
| Diversifier.UnpickedChronological | src/agent/tools/schedule_tool.py:268-273 | fill-in keeps candidate order |
| Diversifier.DiversifyBounds | src/agent/tools/schedule_tool.py:234-275 | at most nine recommendations, each a candidate; none iff there are no candidates |
| Diversifier.DiversifyCount | src/agent/tools/schedule_tool.py:234-275 | with distinct candidate starts there are exactly min(9, n) recommendations, pairwise distinct |
| Diversifier.DiversifyFirst | src/agent/tools/schedule_tool.py:256-262 | for chronological candidates the first recommendation is the earliest candidate |
| Scheduler.SearchWindow | src/agent/tools/schedule_tool.py:474-475 | the window starts at midnight of the start date and ends at midnight `days` dates later |
| Scheduler.FindAvailableSlots | src/agent/tools/schedule_tool.py:145-275 | the call fails iff some event has both chosen timestamps present and one of them is not ISO-8601, with `fromisoformat`'s error; otherwise it gives at most nine slots, each of the requested length in business hours |
| Scheduler.CandidatesWellFormed | src/agent/tools/schedule_tool.py:202-231 | for a midnight window, candidates are chronological, in business hours, start in [window start 09:00, window end); a candidate not at 09:00 is free of the raw busy list, and every candidate is free when no busy interval ends before 09:00 or in the last half hour of its date (that every fitting meeting gets a candidate is `Scheduler.CandidatesFind`) |
| Scheduler.RecommendWellFormed | src/agent/tools/schedule_tool.py:202-275 | recommendations number min(9, candidates), start with the earliest candidate, have distinct starts, lie in business hours and inside the window; one not at 09:00 is free, and all are free when no busy interval ends before 09:00 or in the last half hour of its date |
| Scheduler.MergedEndsRegular | src/agent/tools/schedule_tool.py:189-199 | when every raw busy end is at or after 09:00 and before 23:30, so is every merged end |
| Scheduler.CandidatesAgree | src/agent/tools/schedule_tool.py:202-275 | when no busy interval ends before 09:00 or in the last half hour of its date, the engine as written and the corrected engine give the same candidates and recommendations, and every recommendation is free of every busy interval |
| Scheduler.FreeOfMerged | src/agent/tools/schedule_tool.py:189-215 | a slot free of the merged list is free of the original busy list |
| Scheduler.FreeOfRaw | src/agent/tools/schedule_tool.py:189-215 | for busy intervals that end after they start, a non-empty slot free of the raw list is free of the merged list |
| Scheduler.CandidatesFind | src/agent/tools/schedule_tool.py:201-275 | for a window starting at midnight, a positive length and busy intervals that end after they start on whole minutes: every meeting that fits at a whole-minute start in the window has a candidate starting less than 30 minutes before it, and the recommendations are not empty |
| Scheduler.CandidatesRetestFind | src/agent/tools/schedule_tool.py:201-275 | the same for the corrected engine |
| Scheduler.BusinessHoursBound | src/agent/tools/schedule_tool.py:224-226 | a slot that fits between 09:00 and 22:00 lasts at most 780 minutes |
| Scheduler.LongMeetingsNever | src/agent/tools/schedule_tool.py:224-267 | a meeting longer than 780 minutes gets no recommendation |
| Scheduler.EmptyCalendar | src/agent/tools/schedule_tool.py:203-262 | with no events the first recommendation is 09:00 of the first date, for the requested length |
| Scheduler.ClampSkipsRetest | src/agent/tools/schedule_tool.py:209-226 | a busy interval ending 23:45, then one at 09:00-10:00 next day: the first recommendation is 09:00-10:00 next day, which overlaps the second interval; the first busy end lies in the last half hour of its date |
| Scheduler.RetestFixesClamp | src/agent/tools/schedule_tool.py:209-226 | with the busy test repeated after the clamp, the same input first gets the free slot 10:00-11:00 |
| Scheduler.RetestAllFree | src/agent/tools/schedule_tool.py:209-226 | with the repeated test, every recommendation is free of every busy interval |
| Scheduler.FindAvailableSlotsRetest | src/agent/tools/schedule_tool.py:145-275 | the corrected pipeline fails exactly as the original does; otherwise at most nine slots, all free of every busy interval |
| Clock.AtHourFacts | src/agent/tools/schedule_tool.py:203-231 | `replace(hour=h, minute=0)` stays on the date, sets hour h and minute 0, keeps the seconds, and a second replace overrides the first |
| Clock.Midnight | src/agent/tools/schedule_tool.py:474 | `replace(hour=0, minute=0, second=0)` is the midnight of the same date, not after the time |
| WebSearch.Queries | src/agent/tools/web_search.py:45-47 | the query comes first; a second query exists iff opposite views are requested; it appends " 단점", or " 반론" when the query already holds "단점" |
| WebSearch.FailingQueryDropped | src/agent/tools/web_search.py:49-61 | a query whose search raises contributes nothing; the others' results stay in query order |
| WebSearch.CollectAppend | src/agent/tools/web_search.py:48-61 | results of a query list are the results of each part in turn |
| WebSearch.KindSpec | src/agent/tools/web_search.py:71 | "뉴스" iff the URL contains "news"; "블로그" iff it has "blog" but not "news"; "기타" otherwise |
| WebSearch.DedupFirst | src/agent/tools/web_search.py:63-73 | every kept record is the record of the first hit with its URL |
| WebSearch.DedupOrder | src/agent/tools/web_search.py:63-73 | kept records follow the order of their first occurrences |
| WebSearch.DedupComplete | src/agent/tools/web_search.py:63-73 | every URL among the hits is kept |
| WebSearch.AdvancedWebSearch | src/agent/tools/web_search.py:41-74 | a blank or one-character query is refused with its message iff it is too short; a hit without a URL raises iff the query is long enough; otherwise at most `max_results` records |
| WebSearch.GuardSkipsSearch | src/agent/tools/web_search.py:41-42 | a too-short query gets the same refusal whatever the search backend would do |
| WebSearch.AnswerSpec | src/agent/tools/web_search.py:63-74 | the answer is a prefix of the de-duplicated hits, URLs pairwise distinct, each record that of its URL's first hit |
| WebReader.Chunks | src/agent/tools/web_reader.py:50 | a zero chunk size raises; a negative one gives no chunks |
| WebReader.ChunksRoundTrip | src/agent/tools/web_reader.py:50 | for a positive size the chunks concatenate back to the text, and there are ceil(len / size) of them |
| WebReader.ChunkLengths | src/agent/tools/web_reader.py:50 | every chunk is non-empty and at most `size` long; all but the last are exactly `size` long |
| WebReader.ChunkAt | src/agent/tools/web_reader.py:50 | chunk k is the slice starting at k * size, cut at the end of the text |
| WebReader.EmptyTextNoChunks | src/agent/tools/web_reader.py:50 | an empty page gives no chunks |
| WebReader.ReadWebPage | src/agent/tools/web_reader.py:41-60 | an error becomes a single error line; otherwise the 8000-character chunks glue back to the page text and each is 1 to 8000 long |
| DeepSearch.LinksSpec | src/agent/tools/web_search_tool.py:70 | a link is kept iff some result carries it; there are none iff no result has a link |
| DeepSearch.LinksAppend | src/agent/tools/web_search_tool.py:70 | the links of two result lists are those of each in turn |
| DeepSearch.Truncate | src/agent/tools/web_search_tool.py:79-80 | content of at most 5000 characters is unchanged; longer content keeps its first 5000 characters followed by "... (truncated)" |
| DeepSearch.DeepSearch | src/agent/tools/web_search_tool.py:67-72 | no results gives "No search results found."; results without links give "No valid URLs found in search results." |
| DeepSearch.BlockOfSpec | src/agent/tools/web_search_tool.py:29-42 | a block opens with the "--- Content from <url> ---" header and is at most 5000 characters plus the marker longer; a short page appears whole, a long one cut to its first 5000 characters and marked; a transport failure appears as "Error fetching <url>: <message>" and any other failure as "An unexpected error occurred: <message>" |
| DeepSearch.DeepSearchSpec | src/agent/tools/web_search_tool.py:74-83 | with links, the answer is one block per link in link order, joined by a blank line |
| DeepSearch.DeepSearchBlocks | src/agent/tools/web_search_tool.py:74-83 | with links, the answer is the join, by a blank line, of a block list as long as the link list whose i-th block is the block of the i-th link |
| Download.DownloadFile | src/routers/download_router.py:13-30 | 400 iff the name contains "..", "/" or "\\"; otherwise the file is served from the temporary directory iff it exists there, else 404 |
| Download.RejectsBeforeLookup | src/routers/download_router.py:13-14 | a rejected name gets 400 whatever the file system holds |
| Download.ServedPathConfined | src/routers/download_router.py:13-17 | an accepted name is joined directly under the temporary directory and holds no separator and no ".." |
| Download.SingleDotAllowed | src/routers/download_router.py:13 | "x.docx" passes the check |
| Download.GeneratedNamesPass | src/agent/tools/generate_report_tool.py:301 | a name of hex digits and hyphens followed by ".docx" or ".pptx" always passes the check |
| Security.SelectUserId | src/core/security.py:30 | a truthy `userId` wins; else a truthy `id`; else whatever `sub` holds |
| Security.UserIdTakesPrecedence | src/core/security.py:30 | with a truthy `userId`, changing `id` or `sub` changes nothing |
| Security.CurrentUserId | src/core/security.py:25-40 | a decode failure gives 401 "Invalid token"; a missing id gives 401 "user_id not found"; a present id with a missing `exp`, or with a numeric `exp` before now, gives 401 "Token has expired or invalid"; no other 401 detail exists |
| Security.AuthorizedSpec | src/core/security.py:28-38 | a caller gets an id iff the token decodes, an id claim is present, `exp` is a number not before now, and `int` of the chosen id is that id |
| Security.MissingIdFirst | src/core/security.py:33-36 | without any id claim the refusal is "user_id not found" whatever `exp` holds |
| Security.ExpiryBoundary | src/core/security.py:35-36 | an `exp` equal to the current second is accepted; one microsecond later, or with `exp` a second earlier, it is refused |
| Security.FalsySubPassesCheck | src/core/security.py:30-38 | a `sub` of 0 or False is accepted as user 0; an empty `sub` string raises `ValueError` |
| Security.ParseShowInt | src/core/security.py:38 | `int(str(n)) == n` for every integer |
| Security.TextualIdAccepted | src/core/security.py:30-38 | a string id spelling n is accepted as user n |
| Security.ExpSeconds | src/core/security.py:35 | among the modelled claims, `fromtimestamp` accepts integers and booleans only (Python also accepts floats, which are not modelled); every other claim raises `TypeError` |
| Security.ToInt | src/core/security.py:38 | `int` keeps an integer; a string converts iff it parses; a list or object raises `TypeError` |

## Findings

| source | as written | input that shows it | evidently intended | confidence | as-written member | corrected member |
|---|---|---|---|---|---|---|
| src/agent/tools/schedule_tool.py:209-226 | the busy test runs before the clamp to 09:00; after the clamp the slot is emitted without another test | busy 09:00-23:45 on day 0 and 09:00-10:00 on day 1, a two-day window from day 0, 60 minutes: the cursor jumps to 23:45, steps to 00:15 of day 1 where the test finds nothing, and is then clamped to 09:00, so 09:00-10:00 of day 1 is recommended | every recommended slot overlaps no busy interval | high, not executed | Scheduler.ClampSkipsRetest | Scheduler.RetestFixesClamp |

## Left out

- ISO-8601 parsing and printing are left out. Timestamps are integer seconds, and an event field is absent, a parsed time or unparsable. The date key `[:10]` and the hour `[11:13]` are the date and hour arithmetic.
- Time zones, aware datetimes and daylight-saving folds are left out: all times are naive local seconds, and sub-second parts are dropped except for the clock in `Security`.
- The window hours 9 and 22 are the defaults of `_find_available_slots`. The only caller never overrides them, so they are constants.
- Stage 1 treats an `allDay` value as a boolean, and any truthy value counts.
- The HTTP calls are left out: `_make_api_call`, the schedule create/update/delete wrappers, Tavily, Google search, the Jina reader and `FileResponse`. Their results are parameters: the event bundle, a search function, a scrape function, an existence test.
- Selenium rendering and BeautifulSoup cleaning in `fetch_text_chunks` are left out. The cleaned text, or the message of the exception raised while producing it, is the input of `WebReader.ReadWebPage`.
- In `advanced_web_search`, the `results` unwrapping of a dictionary answer and the backend's own `max_results` limit belong to the search parameter. A search that raises, or returns nothing, contributes no hits.
- In stage 1, a `personal_events` or `group_events` value that is present but null is not modelled: a payload key holds a list or is missing, and a missing one is empty. When its camel-case partner is falsy, the source passes `None` to `extend` and raises `TypeError` (schedule_tool.py:164-167).
- In stage 1, a `data` value that is present but null is not modelled: a `data` wrapper always holds a payload. The source then calls `.get` on `None` and raises `AttributeError` (schedule_tool.py:161-164).
- In stage 1, a timestamp that is truthy but not a string, such as a number, is not modelled: an event field is absent, a parsed time or an unparsable string. The source's `fromisoformat` raises `TypeError` on it, not the `ValueError` the model gives for an unparsable string (schedule_tool.py:177-178).
- In `DeepSearchTool._run`, a result whose `link` key is present but null is treated as having no link.
- In `advanced_web_search`, a hit whose `title`, `content` or `url` is present but null is treated as lacking that key. For title and content the source would keep `None` rather than ""; for a null url it raises `TypeError` in the `"news" in url` test, where the model gives `MissingUrl`, the answer of a `KeyError`.
- Signature verification and the library's own expiry check inside `jwt.decode` are left out: a token either decodes to a claim map or fails.
- Scheduler.CandidatesFind, WalkCompleteness.WalkFinds: completeness is stated for whole-minute busy ends and meeting starts, busy intervals that end after they start, and a positive length. Outside them the bound can fail: a cursor left at 09:00:30 by a busy end never offers 09:00:00 of the next date, and an interval that ends before it starts can leave a merged interval the proof does not relate to the raw list. The walk also offers only the half-hour grid from 09:00 and from each busy end, so the slot found may start up to 29 minutes before the one that fits.
- Security.CurrentUserId: a floating-point `exp` or id, non-ASCII digits in `int`, and the `OverflowError` of an out-of-range `fromtimestamp` are not modelled.
- The LLM prompts, the agent, the report and slide generators, the arXiv and Semantic Scholar tools, and the configuration and style scripts are left out: they are not pure logic.

=== FILE: basics.dfy ===
/** Small shared vocabulary: optional values, results, and the handful of
    Python string and slice operations the modelled code relies on. */
module Basics {

  datatype Option<+T> = None | Some(value: T) {
    function GetOr(default: T): T {
      match this
      case Some(v) => v
      case None => default
    }
  }

  datatype Result<+T, +E> = Success(value: T) | Failure(error: E)

  function Min(a: int, b: int): int { if a <= b then a else b }

  function Max(a: int, b: int): int { if a <= b then b else a }

  /** `pat in s` for Python strings: `pat` occurs as a contiguous substring of `s`. */
  predicate Contains(s: string, pat: string) {
    exists i | 0 <= i <= |s| :: OccursAt(s, pat, i)
  }

  predicate OccursAt(s: string, pat: string, i: int) {
    0 <= i <= |s| - |pat| && s[i..i + |pat|] == pat
  }

  /** A one-character pattern occurs exactly when that character occurs. */
  lemma ContainsChar(s: string, c: char)
    ensures Contains(s, [c]) <==> c in s
  {
    if c in s {
      var i :| 0 <= i < |s| && s[i] == c;
      assert OccursAt(s, [c], i);
    }
    if Contains(s, [c]) {
      var i :| 0 <= i <= |s| && OccursAt(s, [c], i);
      assert s[i..i + 1] == [c];
      assert s[i] == s[i..i + 1][0];
    }
  }

  /** Python `s[:n]`: a negative `n` counts from the end, and both ends clamp. */
  function PyPrefix<T>(s: seq<T>, n: int): (r: seq<T>)
    ensures n >= 0 ==> |r| == Min(n, |s|)
    ensures n < 0 ==> |r| == Max(0, |s| + n)
    ensures r <= s
  {
    if n >= 0 then s[..Min(n, |s|)] else s[..Max(0, |s| + n)]
  }

  /** The characters Python's `str.isspace()` accepts, which `str.strip()`
      removes: ASCII tab to carriage return, the four information separators,
      space, next-line, no-break space, and the Unicode space separators. */
  predicate IsSpace(c: char) {
    || ('\t' <= c <= '\r')
    || ('\U{1C}' <= c <= ' ')
    || c == '\U{85}' || c == '\U{A0}' || c == '\U{1680}'
    || ('\U{2000}' <= c <= '\U{200A}')
    || c == '\U{2028}' || c == '\U{2029}' || c == '\U{202F}' || c == '\U{205F}' || c == '\U{3000}'
  }

  function StripLeft(s: string): (r: string)
    ensures r == [] || !IsSpace(r[0])
    ensures |r| <= |s| && r == s[|s| - |r|..]
    ensures forall i :: 0 <= i < |s| - |r| ==> IsSpace(s[i])
  {
    if s != [] && IsSpace(s[0]) then StripLeft(s[1..]) else s
  }

  function StripRight(s: string): (r: string)
    ensures r == [] || !IsSpace(r[|r| - 1])
    ensures |r| <= |s| && r == s[..|r|]
    ensures forall i :: |r| <= i < |s| ==> IsSpace(s[i])
  {
    if s != [] && IsSpace(s[|s| - 1]) then StripRight(s[..|s| - 1]) else s
  }

  /** Python `s.strip()` with no argument. */
  function Strip(s: string): (r: string)
    ensures r == [] || (!IsSpace(r[0]) && !IsSpace(r[|r| - 1]))
    ensures |r| <= |s|
  {
    StripRight(StripLeft(s))
  }

  /** Python `sep.join(parts)`. */
  function JoinWith(sep: string, parts: seq<string>): string {
    if |parts| == 0 then ""
    else if |parts| == 1 then parts[0]
    else parts[0] + sep + JoinWith(sep, parts[1..])
  }
}

=== FILE: clock.dfy ===
/** Naive local wall-clock time as whole seconds since a fixed midnight.
    Dafny's `/` and `%` with a positive divisor round toward negative
    infinity, so `Day` is the calendar day of `t` for every integer `t`. */
module Clock {

  const DaySeconds: int := 86400
  const HourSeconds: int := 3600
  const MinuteSeconds: int := 60

  /** Opening and closing hour of the business window (the defaults of
      `_find_available_slots`, which its only caller relies on). */
  const WindowStartHour: int := 9
  const WindowEndHour: int := 22

  /** The granularity of the slot walk: 30 minutes. */
  const StepSeconds: int := 1800

  function Day(t: int): int { t / DaySeconds }

  function Hour(t: int): int { (t % DaySeconds) / HourSeconds }

  function MinuteOfDay(t: int): int { (t % DaySeconds) / MinuteSeconds }

  /** `datetime.replace(hour=h, minute=0)`: same date, hour `h`, minute 0,
      seconds kept. */
  function AtHour(t: int, h: int): int
  {
    Day(t) * DaySeconds + h * HourSeconds + t % MinuteSeconds
  }

  /** Midnight of the date of `t` (`replace(hour=0, minute=0, second=0)`). */
  function Midnight(t: int): (r: int)
    ensures r % DaySeconds == 0 && r <= t < r + DaySeconds && Day(r) == Day(t)
  {
    Day(t) * DaySeconds
  }

  lemma HourRange(t: int)
    ensures 0 <= Hour(t) < 24
    ensures Day(t) * DaySeconds + Hour(t) * HourSeconds <= t < Day(t) * DaySeconds + (Hour(t) + 1) * HourSeconds
  {
  }

  /** What `AtHour` produces: the same date and seconds, at the requested hour. */
  lemma AtHourFacts(t: int, h: int)
    requires 0 <= h < 24
    ensures Day(AtHour(t, h)) == Day(t)
    ensures Hour(AtHour(t, h)) == h
    ensures MinuteOfDay(AtHour(t, h)) == h * 60
    ensures AtHour(t, h) % MinuteSeconds == t % MinuteSeconds
    ensures forall k :: 0 <= k < 24 ==> AtHour(AtHour(t, h), k) == AtHour(t, k)
  {
  }

  lemma ModSixty(x: int, w: int)
    ensures (MinuteSeconds * x + w) % MinuteSeconds == w % MinuteSeconds
  {
  }

  /** A time is its date, its hour and an offset into the hour, and the
      seconds of the minute never exceed that offset. */
  lemma HourOffset(t: int)
    ensures t == Day(t) * DaySeconds + Hour(t) * HourSeconds + (t % DaySeconds) % HourSeconds
    ensures 0 <= (t % DaySeconds) % HourSeconds < HourSeconds
    ensures t % MinuteSeconds <= (t % DaySeconds) % HourSeconds
  {
    var r := t % DaySeconds;
    var h := r / HourSeconds;
    var w := r % HourSeconds;
    assert t == Day(t) * DaySeconds + r;
    assert r == h * HourSeconds + w;
    var x := Day(t) * 1440 + h * 60;
    assert t == MinuteSeconds * x + w;
    ModSixty(x, w);
  }

  /** A time is its date's midnight plus its time of day, and the window
      hours are thresholds on the time of day. */
  lemma SplitTime(t: int)
    ensures t == Day(t) * DaySeconds + t % DaySeconds && 0 <= t % DaySeconds < DaySeconds
    ensures Hour(t) >= WindowStartHour <==> t % DaySeconds >= WindowStartHour * HourSeconds
    ensures Hour(t) >= WindowEndHour <==> t % DaySeconds >= WindowEndHour * HourSeconds
  {
  }

  /** At midnight, `AtHour` just adds the hours. */
  lemma MidnightAtHour(t: int, h: int)
    requires t % DaySeconds == 0
    ensures AtHour(t, h) == t + h * HourSeconds
  {
    var d := Day(t);
    assert t == d * DaySeconds;
    assert t % MinuteSeconds == (d * 1440 * MinuteSeconds) % MinuteSeconds == 0;
  }

  /** Before the given hour on its date, `AtHour` moves the clock forward. */
  lemma AtHourAdvances(t: int, h: int)
    requires 0 <= h < 24 && Hour(t) < h
    ensures t < AtHour(t, h)
  {
  }

  /** Adding whole minutes keeps the seconds-of-minute. */
  lemma ShiftKeepsSeconds(t: int, minutes: int)
    ensures (t + minutes * MinuteSeconds) % MinuteSeconds == t % MinuteSeconds
  {
  }

  /** The next date's `AtHour` lies after every instant of this date. */
  lemma NextDayAfter(t: int, h: int)
    requires 0 <= h < 24
    ensures t < AtHour(t + DaySeconds, h)
    ensures Day(AtHour(t + DaySeconds, h)) == Day(t) + 1
  {
  }

  /** Day and hour never decrease as time moves forward. */
  lemma Monotone(s: int, t: int)
    requires s <= t
    ensures Day(s) <= Day(t)
    ensures Day(s) == Day(t) ==> Hour(s) <= Hour(t)
  {
  }

  /** An instant on the date of one before a midnight is itself before that
      midnight. */
  lemma SameDayBefore(t: int, u: int, midnight: int)
    requires t < midnight && midnight % DaySeconds == 0 && Day(u) == Day(t)
    ensures u < midnight
  {
    assert midnight == Day(midnight) * DaySeconds;
    Monotone(t, midnight);
    assert Day(t) < Day(midnight);
  }
}

=== FILE: completeness.dfy ===
/** Completeness of the slot walk: under whole-minute times, every slot
    that fits before the window end has an emitted slot starting less than
    one step before it. */
module WalkCompleteness {
  import opened Clock
  import opened Intervals
  import opened SlotWalk

  /** A jump past a colliding busy interval never passes a fitting slot. */
  lemma JumpBeforeFit(busy: seq<Interval>, t: int, minutes: int, s: int)
    requires t <= s && FirstCollision(busy, t, minutes).Some?
    requires FreeOf(Interval(s, s + minutes * MinuteSeconds), busy)
    ensures FirstCollision(busy, t, minutes).value <= s
  {
    var i :| 0 <= i < |busy| && Collides(t, minutes, busy[i])
      && FirstCollision(busy, t, minutes).value == busy[i].end
      && forall j :: 0 <= j < i ==> !Collides(t, minutes, busy[j]);
  }

  /** The clamp never passes a whole-minute time at or after 09:00. */
  lemma ClampBeforeFit(t: int, s: int)
    requires t <= s && Hour(s) >= WindowStartHour
    requires t % MinuteSeconds == 0 && s % MinuteSeconds == 0
    ensures Clamp(t) <= s
  {
    if Hour(t) < WindowStartHour {
      SplitTime(t);
      SplitTime(s);
      Monotone(t, s);
      if Day(t) < Day(s) {
        assert Day(t) * DaySeconds + DaySeconds <= Day(s) * DaySeconds;
      }
    }
  }

  /** A whole-minute time at the opening hour is exactly 09:00:00. */
  lemma OpeningInstant(r: int)
    requires AtOpening(r) && r % MinuteSeconds == 0
    ensures r == Day(r) * DaySeconds + WindowStartHour * HourSeconds
  {
    SplitTime(r);
    ModSixty(Day(r) * (DaySeconds / MinuteSeconds), r % DaySeconds);
  }

  /** From a whole-minute cursor, a step lands no later than 09:00 of the
      following date. */
  lemma AdvanceBeforeNextOpening(c: int)
    requires c % MinuteSeconds == 0
    ensures Advance(c) <= (Day(c) + 1) * DaySeconds + WindowStartHour * HourSeconds
  {
    var u := c + StepSeconds;
    SplitTime(c);
    SplitTime(u);
    if Hour(u) >= WindowEndHour {
      OpeningInstant(Advance(c));
    }
  }

  /** A time at or after 09:00 on a later date than `c` is at or after 09:00
      of the date following `c`. */
  lemma LaterDateOpening(c: int, s: int)
    ensures Day(c) < Day(s) && Hour(s) >= WindowStartHour ==>
      (Day(c) + 1) * DaySeconds + WindowStartHour * HourSeconds <= s
  {
    SplitTime(s);
  }

  /** A step never jumps over the opening hours of a whole date: a time at
      or after 09:00 that the step passes lies on the cursor's date. */
  lemma StepStaysOnDate(c: int, s: int)
    requires c % MinuteSeconds == 0
    requires c <= s < Advance(c) && Hour(s) >= WindowStartHour
    ensures Day(s) == Day(c)
  {
    Monotone(c, s);
    AdvanceBeforeNextOpening(c);
    LaterDateOpening(c, s);
  }

  /** A step from a cursor at or after 09:00 passes a fitting slot only when
      that slot starts less than a step after the cursor, on the cursor's own
      date, so that the cursor's own slot fits too. */
  lemma StepPastFit(c: int, s: int, minutes: int)
    requires minutes > 0 && Hour(c) >= WindowStartHour
    requires c % MinuteSeconds == 0 && s % MinuteSeconds == 0
    requires c <= s < Advance(c)
    requires InBusinessHours(Interval(s, s + minutes * MinuteSeconds), minutes)
    ensures s - StepSeconds < c
    ensures c + minutes * MinuteSeconds <= AtHour(c, WindowEndHour)
  {
    StepStaysOnDate(c, s);
    var u := c + StepSeconds;
    if Hour(u) >= WindowEndHour {
      SplitTime(u);
      Monotone(c, u);
    }
  }

  /** One pass from a whole-minute cursor at or before a fitting slot either
      leaves the cursor at or before it, or emits a slot starting less than a
      step before it; the next cursor is again a whole minute. */
  lemma IterateFinds(busy: seq<Interval>, t: int, minutes: int, s: int)
    requires minutes > 0 && t % MinuteSeconds == 0 && WholeMinuteEnds(busy)
    requires t <= s && FitsAt(busy, s, minutes)
    ensures Iterate(busy, t, minutes).next % MinuteSeconds == 0
    ensures Iterate(busy, t, minutes).next > s ==>
      Iterate(busy, t, minutes).emitted != []
      && s - StepSeconds < Iterate(busy, t, minutes).emitted[0].start <= s
  {
    match FirstCollision(busy, t, minutes)
    case Some(jump) =>
      JumpBeforeFit(busy, t, minutes, s);
      var i :| 0 <= i < |busy| && Collides(t, minutes, busy[i]) && jump == busy[i].end
        && forall j :: 0 <= j < i ==> !Collides(t, minutes, busy[j]);
    case None =>
      var c := Clamp(t);
      ClampBeforeFit(t, s);
      if Advance(c) > s {
        StepPastFit(c, s, minutes);
        AtHourFacts(t, WindowEndHour);
        assert AtHour(c, WindowEndHour) == AtHour(t, WindowEndHour);
      }
  }

  /** The same for the corrected pass. */
  lemma IterateRetestFinds(busy: seq<Interval>, t: int, minutes: int, s: int)
    requires minutes > 0 && t % MinuteSeconds == 0 && WholeMinuteEnds(busy)
    requires t <= s && FitsAt(busy, s, minutes)
    ensures IterateRetest(busy, t, minutes).next % MinuteSeconds == 0
    ensures IterateRetest(busy, t, minutes).next > s ==>
      IterateRetest(busy, t, minutes).emitted != []
      && s - StepSeconds < IterateRetest(busy, t, minutes).emitted[0].start <= s
  {
    IterateFinds(busy, t, minutes, s);
    if Hour(t) < WindowStartHour && FirstCollision(busy, t, minutes).None? {
      ClampBeforeFit(t, s);
    }
  }

  /** Before the window end, the walk is one pass followed by the walk from
      the next cursor. */
  lemma WalkUnfold(busy: seq<Interval>, t: int, searchEnd: int, minutes: int)
    requires t < searchEnd
    ensures var it := Iterate(busy, t, minutes);
      var rest := Walk(busy, it.next, searchEnd, minutes);
      var w := Walk(busy, t, searchEnd, minutes);
      && |it.emitted| <= |w| && w[|it.emitted|..] == rest
      && (it.emitted != [] ==> w[0] == it.emitted[0])
  {
    var it := Iterate(busy, t, minutes);
    var rest := Walk(busy, it.next, searchEnd, minutes);
    if it.emitted != [] {
      assert Walk(busy, t, searchEnd, minutes) == [it.emitted[0]] + rest;
    }
  }

  /** One pass of the walk towards a fitting slot: either it emits a slot
      starting less than a step before the fitting one, or the walk from the
      next cursor is a suffix of the whole walk. */
  lemma WalkStep(busy: seq<Interval>, t: int, searchEnd: int, minutes: int, s: int)
    returns (next: int, k: nat)
    requires Searching(busy, t, searchEnd, minutes, s)
    ensures t < next && next % MinuteSeconds == 0
    ensures next <= s ==>
      && k <= |Walk(busy, t, searchEnd, minutes)|
      && Walk(busy, t, searchEnd, minutes)[k..] == Walk(busy, next, searchEnd, minutes)
    ensures next > s ==>
      && Walk(busy, t, searchEnd, minutes) != []
      && s - StepSeconds < Walk(busy, t, searchEnd, minutes)[0].start <= s
  {
    IterateFinds(busy, t, minutes, s);
    WalkUnfold(busy, t, searchEnd, minutes);
    next, k := Iterate(busy, t, minutes).next, |Iterate(busy, t, minutes).emitted|;
  }

  /** The same for the corrected walk. */
  lemma WalkRetestUnfold(busy: seq<Interval>, t: int, searchEnd: int, minutes: int)
    requires t < searchEnd
    ensures var it := IterateRetest(busy, t, minutes);
      var rest := WalkRetest(busy, it.next, searchEnd, minutes);
      var w := WalkRetest(busy, t, searchEnd, minutes);
      && |it.emitted| <= |w| && w[|it.emitted|..] == rest
      && (it.emitted != [] ==> w[0] == it.emitted[0])
  {
    var it := IterateRetest(busy, t, minutes);
    var rest := WalkRetest(busy, it.next, searchEnd, minutes);
    if it.emitted != [] {
      assert WalkRetest(busy, t, searchEnd, minutes) == [it.emitted[0]] + rest;
    }
  }

  /** The same for the corrected walk. */
  lemma WalkRetestStep(busy: seq<Interval>, t: int, searchEnd: int, minutes: int, s: int)
    returns (next: int, k: nat)
    requires Searching(busy, t, searchEnd, minutes, s)
    ensures t < next && next % MinuteSeconds == 0
    ensures next <= s ==>
      && k <= |WalkRetest(busy, t, searchEnd, minutes)|
      && WalkRetest(busy, t, searchEnd, minutes)[k..] == WalkRetest(busy, next, searchEnd, minutes)
    ensures next > s ==>
      && WalkRetest(busy, t, searchEnd, minutes) != []
      && s - StepSeconds < WalkRetest(busy, t, searchEnd, minutes)[0].start <= s
  {
    IterateRetestFinds(busy, t, minutes, s);
    WalkRetestUnfold(busy, t, searchEnd, minutes);
    next, k := IterateRetest(busy, t, minutes).next, |IterateRetest(busy, t, minutes).emitted|;
  }

  /** From a whole-minute cursor, over busy intervals ending on whole
      minutes, the walk as written emits a slot starting less than a step
      before every fitting slot that lies before the window end. */
  lemma {:induction false} WalkFinds(busy: seq<Interval>, t: int, searchEnd: int, minutes: int, s: int)
    returns (i: int)
    requires Searching(busy, t, searchEnd, minutes, s)
    ensures 0 <= i < |Walk(busy, t, searchEnd, minutes)|
    ensures s - StepSeconds < Walk(busy, t, searchEnd, minutes)[i].start <= s
    decreases searchEnd - t
  {
    var next, k := WalkStep(busy, t, searchEnd, minutes, s);
    if next <= s {
      var j := WalkFinds(busy, next, searchEnd, minutes, s);
      i := k + j;
      assert Walk(busy, t, searchEnd, minutes)[i] == Walk(busy, t, searchEnd, minutes)[k..][j];
    } else {
      i := 0;
    }
  }

  /** The same for the corrected walk. */
  lemma {:induction false} WalkRetestFinds(busy: seq<Interval>, t: int, searchEnd: int, minutes: int, s: int)
    returns (i: int)
    requires Searching(busy, t, searchEnd, minutes, s)
    ensures 0 <= i < |WalkRetest(busy, t, searchEnd, minutes)|
    ensures s - StepSeconds < WalkRetest(busy, t, searchEnd, minutes)[i].start <= s
    decreases searchEnd - t
  {
    var next, k := WalkRetestStep(busy, t, searchEnd, minutes, s);
    if next <= s {
      var j := WalkRetestFinds(busy, next, searchEnd, minutes, s);
      i := k + j;
      assert WalkRetest(busy, t, searchEnd, minutes)[i] == WalkRetest(busy, t, searchEnd, minutes)[k..][j];
    } else {
      i := 0;
    }
  }
}

=== FILE: deepsearch.dfy ===
/** `DeepSearchTool._run` given the search results: keep the results that
    carry a link, scrape each link, cut long pages, and join one block per
    link. The search backend and the scraper are parameters. */
module DeepSearch {
  import opened Basics

  const NoResultsMessage: string := "No search results found."
  const NoUrlsMessage: string := "No valid URLs found in search results."
  const TruncatedMarker: string := "... (truncated)"
  const BlockSeparator: string := "\n\n"

  /** Pages longer than this are cut to this many characters. */
  const MaxContent: int := 5000

  /** One search result; `link` is `None` when the result has no such key. */
  datatype SearchResult = SearchResult(link: Option<string>)

  /** How fetching one page through the reader service ended: its text, a
      transport error, or any other exception (an HTTP error status among
      them), each with the exception's message. */
  datatype Scrape = Page(text: string) | RequestFailed(message: string) | OtherFailure(message: string)

  /** `scrape_with_jina`: the page text, or the error line it returns. */
  function ScrapedText(url: string, s: Scrape): string
  {
    match s
    case Page(text) => text
    case RequestFailed(msg) => "Error fetching " + url + ": " + msg
    case OtherFailure(msg) => "An unexpected error occurred: " + msg
  }

  /** The links of the results from index `i` on that have one, in result
      order. */
  function LinksFrom(results: seq<SearchResult>, i: nat): (r: seq<string>)
    ensures |r| <= |results| - i || (i > |results| && r == [])
    decreases |results| - i
  {
    if i >= |results| then []
    else (if results[i].link.Some? then [results[i].link.value] else []) + LinksFrom(results, i + 1)
  }

  /** `[result["link"] for result in results if "link" in result]`. */
  function Links(results: seq<SearchResult>): (r: seq<string>)
    ensures |r| <= |results|
  {
    LinksFrom(results, 0)
  }

  lemma {:induction false} LinksShift(a: seq<SearchResult>, b: seq<SearchResult>, j: nat)
    ensures LinksFrom(a + b, |a| + j) == LinksFrom(b, j)
    decreases |b| - j
  {
    if j < |b| {
      LinksShift(a, b, j + 1);
      assert (a + b)[|a| + j] == b[j];
    }
  }

  lemma {:induction false} LinksFromAppend(a: seq<SearchResult>, b: seq<SearchResult>, i: nat)
    requires i <= |a|
    ensures LinksFrom(a + b, i) == LinksFrom(a, i) + LinksFrom(b, 0)
    decreases |a| - i
  {
    if i == |a| {
      LinksShift(a, b, 0);
    } else {
      LinksFromAppend(a, b, i + 1);
      assert (a + b)[i] == a[i];
      var h := if a[i].link.Some? then [a[i].link.value] else [];
      assert LinksFrom(a + b, i) == h + LinksFrom(a + b, i + 1);
      assert LinksFrom(a, i) == h + LinksFrom(a, i + 1);
    }
  }

  /** Links of two result lists are the links of each in turn. */
  lemma LinksAppend(a: seq<SearchResult>, b: seq<SearchResult>)
    ensures Links(a + b) == Links(a) + Links(b)
  {
    LinksFromAppend(a, b, 0);
  }

  lemma {:induction false} LinksFromSpec(results: seq<SearchResult>, i: nat)
    ensures forall u :: u in LinksFrom(results, i) <==> exists k :: i <= k < |results| && results[k].link == Some(u)
    ensures LinksFrom(results, i) == [] <==> forall k :: i <= k < |results| ==> results[k].link.None?
    decreases |results| - i
  {
    if i < |results| {
      LinksFromSpec(results, i + 1);
      var h := if results[i].link.Some? then [results[i].link.value] else [];
      assert LinksFrom(results, i) == h + LinksFrom(results, i + 1);
      forall u | u in LinksFrom(results, i)
        ensures exists k :: i <= k < |results| && results[k].link == Some(u)
      {
        if u !in h {
          var k :| i + 1 <= k < |results| && results[k].link == Some(u);
        }
      }
    }
  }

  /** A link is kept exactly when some result carries it, and there are none
      exactly when no result has a link. */
  lemma LinksSpec(results: seq<SearchResult>)
    ensures forall u :: u in Links(results) <==> exists i :: 0 <= i < |results| && results[i].link == Some(u)
    ensures Links(results) == [] <==> forall i :: 0 <= i < |results| ==> results[i].link.None?
  {
    LinksFromSpec(results, 0);
  }

  /** Long content is cut to 5000 characters and marked; short content is
      left alone. */
  function Truncate(content: string): (r: string)
    ensures |content| <= MaxContent ==> r == content
    ensures |content| > MaxContent ==>
      |r| == MaxContent + |TruncatedMarker| && r[..MaxContent] == content[..MaxContent]
      && r[MaxContent..] == TruncatedMarker
  {
    if |content| > MaxContent then content[..MaxContent] + TruncatedMarker else content
  }

  /** The header line that opens the block of `url`. */
  function Header(url: string): string {
    "--- Content from " + url + " ---\n"
  }

  /** The block of one link: its scraped text, truncated, under a header. */
  function BlockOf(url: string, scrape: string -> Scrape): string {
    Header(url) + Truncate(ScrapedText(url, scrape(url)))
  }

  /** A block opens with its link's header and carries at most 5000
      characters of what the scrape gave, plus the marker when cut. A page
      appears whole when short and cut to its first 5000 characters when
      long; a failed scrape appears as its error line. */
  lemma BlockOfSpec(url: string, scrape: string -> Scrape)
    ensures var b := BlockOf(url, scrape);
      && |Header(url)| <= |b| <= |Header(url)| + MaxContent + |TruncatedMarker|
      && b[..|Header(url)|] == Header(url)
    ensures scrape(url).Page? && |scrape(url).text| <= MaxContent ==>
      BlockOf(url, scrape) == Header(url) + scrape(url).text
    ensures scrape(url).Page? && |scrape(url).text| > MaxContent ==>
      BlockOf(url, scrape) == Header(url) + scrape(url).text[..MaxContent] + TruncatedMarker
    ensures (scrape(url).RequestFailed?
             && |"Error fetching " + url + ": " + scrape(url).message| <= MaxContent) ==>
      BlockOf(url, scrape) == Header(url) + "Error fetching " + url + ": " + scrape(url).message
    ensures (scrape(url).OtherFailure?
             && |"An unexpected error occurred: " + scrape(url).message| <= MaxContent) ==>
      BlockOf(url, scrape) == Header(url) + "An unexpected error occurred: " + scrape(url).message
  {
    var h := Header(url);
    var c := Truncate(ScrapedText(url, scrape(url)));
    assert (h + c)[..|h|] == h;
    if |ScrapedText(url, scrape(url))| > MaxContent {
      assert c == c[..MaxContent] + c[MaxContent..];
    }
  }

  /** `[f(x) for x in xs]`. */
  function MapEach(xs: seq<string>, f: string -> string): seq<string> {
    if xs == [] then [] else [f(xs[0])] + MapEach(xs[1..], f)
  }

  lemma {:induction false} MapEachAt(xs: seq<string>, f: string -> string)
    ensures |MapEach(xs, f)| == |xs|
    ensures forall i :: 0 <= i < |xs| ==> MapEach(xs, f)[i] == f(xs[i])
  {
    if xs != [] {
      MapEachAt(xs[1..], f);
      forall i | 1 <= i < |xs| ensures MapEach(xs, f)[i] == f(xs[i]) {
        assert MapEach(xs, f)[i] == MapEach(xs[1..], f)[i - 1];
      }
    }
  }

  /** Mapping over all but the last element, then the last one. */
  lemma {:induction false} MapEachSnoc(xs: seq<string>, f: string -> string)
    requires xs != []
    ensures MapEach(xs, f) == MapEach(xs[..|xs| - 1], f) + [f(xs[|xs| - 1])]
  {
    var n := |xs|;
    if n == 1 {
      assert xs[..0] == [];
      assert MapEach(xs, f) == [f(xs[0])] + MapEach([], f);
    } else {
      var tail := xs[1..];
      MapEachSnoc(tail, f);
      assert tail[..|tail| - 1] == xs[..n - 1][1..];
      assert tail[|tail| - 1] == xs[n - 1];
      var init := xs[..n - 1];
      assert init[0] == xs[0];
      calc {
        MapEach(xs, f);
        [f(xs[0])] + MapEach(tail, f);
        [f(xs[0])] + (MapEach(init[1..], f) + [f(xs[n - 1])]);
        ([f(init[0])] + MapEach(init[1..], f)) + [f(xs[n - 1])];
        MapEach(init, f) + [f(xs[n - 1])];
      }
    }
  }

  /** One block per link, in link order. */
  function Blocks(urls: seq<string>, scrape: string -> Scrape): seq<string> {
    MapEach(urls, u => BlockOf(u, scrape))
  }

  /** `DeepSearchTool._run` over the given results and scraper. */
  function DeepSearch(results: seq<SearchResult>, scrape: string -> Scrape): (r: string)
    ensures results == [] ==> r == NoResultsMessage
    ensures results != [] && Links(results) == [] ==> r == NoUrlsMessage
  {
    if results == [] then NoResultsMessage
    else
      var urls := Links(results);
      if urls == [] then NoUrlsMessage
      else JoinWith(BlockSeparator, Blocks(urls, scrape))
  }

  /** Joining a list with one more part appends the separator and the part. */
  lemma {:induction false} JoinSnoc(sep: string, parts: seq<string>, p: string)
    requires parts != []
    ensures JoinWith(sep, parts + [p]) == JoinWith(sep, parts) + sep + p
    decreases |parts|
  {
    if |parts| == 1 {
      assert parts + [p] == [parts[0], p];
      assert [parts[0], p][1..] == [p];
    } else {
      JoinSnoc(sep, parts[1..], p);
      assert (parts + [p])[1..] == parts[1..] + [p];
      assert (parts + [p])[0] == parts[0];
    }
  }

  /** With at least one link, the answer is the blocks in link order joined
      by a blank line: the blocks of the first links, then a blank line and
      the block of the last link. */
  lemma DeepSearchSpec(results: seq<SearchResult>, scrape: string -> Scrape)
    requires Links(results) != []
    ensures |Links(results)| == 1 ==>
      DeepSearch(results, scrape) == BlockOf(Links(results)[0], scrape)
    ensures |Links(results)| > 1 ==>
      DeepSearch(results, scrape) ==
        JoinWith(BlockSeparator, Blocks(Links(results)[..|Links(results)| - 1], scrape)) + BlockSeparator
        + BlockOf(Links(results)[|Links(results)| - 1], scrape)
  {
    var urls := Links(results);
    var n := |urls|;
    var bs := Blocks(urls, scrape);
    assert results != [];
    assert DeepSearch(results, scrape) == JoinWith(BlockSeparator, bs);
    var f := u => BlockOf(u, scrape);
    MapEachAt(urls, f);
    if n > 1 {
      var front := Blocks(urls[..n - 1], scrape);
      var last := BlockOf(urls[n - 1], scrape);
      MapEachSnoc(urls, f);
      MapEachAt(urls[..n - 1], f);
      JoinSnoc(BlockSeparator, front, last);
    }
  }

  /** With at least one link, the answer is a list of blocks joined by a
      blank line, with exactly one block per link, the i-th block being that
      of the i-th link. */
  lemma DeepSearchBlocks(results: seq<SearchResult>, scrape: string -> Scrape) returns (bs: seq<string>)
    requires Links(results) != []
    ensures DeepSearch(results, scrape) == JoinWith(BlockSeparator, bs)
    ensures |bs| == |Links(results)|
    ensures forall i :: 0 <= i < |bs| ==> bs[i] == BlockOf(Links(results)[i], scrape)
  {
    assert results != [];
    bs := Blocks(Links(results), scrape);
    MapEachAt(Links(results), u => BlockOf(u, scrape));
  }
}

=== FILE: diversify.dfy ===
/** The slot diversifier: from the chronological candidate list, pick the
    first morning and the first afternoon slot of each date, in date order,
    then top up with the earliest unpicked candidates, at most nine in all
    (last stage of `_find_available_slots`). */
module Diversifier {
  import opened Basics
  import opened Clock
  import opened Intervals

  const MaxRecommendations: int := 9

  /** Slots starting before this hour are morning slots. */
  const AfternoonHour: int := 14

  predicate Morning(s: Interval) { Hour(s.start) < AfternoonHour }

  /** The bucket of a slot, date and half-day folded into one number:
      twice the date, plus one for the afternoon. */
  function Bucket(s: Interval): int { 2 * Day(s.start) + (if Morning(s) then 0 else 1) }

  predicate Increasing(xs: seq<int>) {
    forall i, j :: 0 <= i < j < |xs| ==> xs[i] < xs[j]
  }

  function InsertDay(days: seq<int>, d: int): (r: seq<int>)
    ensures forall x :: x in r <==> x in days || x == d
    ensures Increasing(days) ==> Increasing(r)
  {
    if days == [] then [d]
    else if d < days[0] then [d] + days
    else if d == days[0] then days
    else
      var tail := InsertDay(days[1..], d);
      assert forall x :: x in days <==> x == days[0] || x in days[1..];
      if Increasing(days) then
        assert forall x :: x in days[1..] ==> days[0] < x;
        assert forall k :: 0 <= k < |tail| ==> tail[k] in tail;
        [days[0]] + tail
      else [days[0]] + tail
  }

  /** `sorted(slots_by_day.keys())`: the candidates' dates, ascending, each once. */
  function SortedDays(c: seq<Interval>): (r: seq<int>)
    ensures Increasing(r)
    ensures forall d :: d in r <==> exists i :: 0 <= i < |c| && Day(c[i].start) == d
  {
    if c == [] then []
    else
      var r := InsertDay(SortedDays(c[1..]), Day(c[0].start));
      assert forall i :: 1 <= i < |c| ==> c[i] == c[1..][i - 1];
      r
  }

  /** `c[k]` is the first candidate of its bucket. */
  predicate HeadAt(c: seq<Interval>, k: int) {
    0 <= k < |c| && forall j :: 0 <= j < k ==> Bucket(c[j]) != Bucket(c[k])
  }

  /** `x` is the first candidate of its bucket. */
  predicate IsHead(c: seq<Interval>, x: Interval) {
    exists k | 0 <= k < |c| :: HeadAt(c, k) && c[k] == x
  }

  /** The head of one bucket list (`slots_by_day[day]["morning"][0]` or the
      afternoon one): the first candidate in bucket `key`, or nothing. */
  function FirstIn(c: seq<Interval>, key: int): (r: seq<Interval>)
    ensures |r| <= 1
  {
    if c == [] then []
    else if Bucket(c[0]) == key then [c[0]]
    else FirstIn(c[1..], key)
  }

  /** A bucket head is the first candidate in its bucket, and there is one
      exactly when the bucket is non-empty. */
  lemma {:induction false} FirstInSpec(c: seq<Interval>, key: int)
    ensures FirstIn(c, key) == [] <==> forall i :: 0 <= i < |c| ==> Bucket(c[i]) != key
    ensures FirstIn(c, key) != [] ==>
      Bucket(FirstIn(c, key)[0]) == key && IsHead(c, FirstIn(c, key)[0]) && FirstIn(c, key)[0] in c
  {
    if c != [] {
      if Bucket(c[0]) == key {
        assert HeadAt(c, 0);
      } else {
        FirstInSpec(c[1..], key);
        assert forall i :: 1 <= i < |c| ==> c[i] == c[1..][i - 1];
        var r := FirstIn(c[1..], key);
        if r != [] {
          var k :| 0 <= k < |c[1..]| && HeadAt(c[1..], k) && c[1..][k] == r[0];
          assert c[k + 1] == r[0] && Bucket(r[0]) == key;
          forall j | 0 <= j < k + 1 ensures Bucket(c[j]) != Bucket(c[k + 1]) {
            if j > 0 { assert c[j] == c[1..][j - 1]; }
          }
          assert HeadAt(c, k + 1);
        }
      }
    }
  }

  /** A bucket head is a candidate of that bucket. */
  lemma {:induction false} FirstInBucket(c: seq<Interval>, key: int)
    ensures FirstIn(c, key) != [] ==> FirstIn(c, key)[0] in c && Bucket(FirstIn(c, key)[0]) == key
  {
    if c != [] && Bucket(c[0]) != key {
      FirstInBucket(c[1..], key);
    }
  }

  /** A bucket head is the first candidate of its bucket. */
  lemma FirstInHead(c: seq<Interval>, key: int)
    requires FirstIn(c, key) != []
    ensures FirstIn(c, key)[0] in c && Bucket(FirstIn(c, key)[0]) == key
    ensures IsHead(c, FirstIn(c, key)[0])
  {
    FirstInSpec(c, key);
  }

  /** The first phase as the source runs it: per date, the morning head and
      then the afternoon head, stopping as soon as nine are collected. */
  function Phase1(c: seq<Interval>, days: seq<int>, recs: seq<Interval>): seq<Interval>
    decreases |days|
  {
    if days == [] || |recs| >= MaxRecommendations then recs
    else
      var withMorning := recs + FirstIn(c, 2 * days[0]);
      if |withMorning| >= MaxRecommendations then withMorning
      else Phase1(c, days[1..], withMorning + FirstIn(c, 2 * days[0] + 1))
  }

  /** The fill-in phase as the source runs it: candidates whose start is not
      among `existing`, in candidate order, until nine are collected. */
  function Fill(c: seq<Interval>, existing: set<int>, recs: seq<Interval>): seq<Interval> {
    if c == [] || |recs| >= MaxRecommendations then recs
    else if c[0].start !in existing then Fill(c[1..], existing, recs + [c[0]])
    else Fill(c[1..], existing, recs)
  }

  /** The recommendations drawn from the candidate list `c`. */
  function Diversify(c: seq<Interval>): seq<Interval> {
    if c == [] then []
    else
      var picked := Phase1(c, SortedDays(c), []);
      var recs := if |picked| < MaxRecommendations then Fill(c, Starts(picked), picked) else picked;
      recs[..Min(MaxRecommendations, |recs|)]
  }

  // ---------------------------------------------------------------------
  // Reference definitions without the early exits
  // ---------------------------------------------------------------------

  function Cap(s: seq<Interval>): seq<Interval> { s[..Min(MaxRecommendations, |s|)] }

  /** Every bucket head, date by date, morning before afternoon. */
  function Picks(c: seq<Interval>, days: seq<int>): seq<Interval> {
    if days == [] then []
    else FirstIn(c, 2 * days[0]) + FirstIn(c, 2 * days[0] + 1) + Picks(c, days[1..])
  }

  /** The candidates whose start is not in `existing`, in candidate order. */
  function Unpicked(c: seq<Interval>, existing: set<int>): seq<Interval> {
    if c == [] then []
    else (if c[0].start !in existing then [c[0]] else []) + Unpicked(c[1..], existing)
  }

  /** Cutting to nine ignores whatever follows nine elements. */
  lemma CapPrefix(s: seq<Interval>, t: seq<Interval>)
    requires |s| >= MaxRecommendations
    ensures Cap(s + t) == Cap(s)
  {
    assert (s + t)[..MaxRecommendations] == s[..MaxRecommendations];
  }

  /** The first phase's early exits only cut the full list of bucket heads. */
  lemma {:induction false} Phase1IsCappedPicks(c: seq<Interval>, days: seq<int>, recs: seq<Interval>)
    requires |recs| <= MaxRecommendations
    ensures Phase1(c, days, recs) == Cap(recs + Picks(c, days))
    decreases |days|
  {
    if days == [] {
      assert recs + Picks(c, days) == recs;
    } else if |recs| == MaxRecommendations {
      CapPrefix(recs, Picks(c, days));
    } else {
      var m := FirstIn(c, 2 * days[0]);
      var a := FirstIn(c, 2 * days[0] + 1);
      var rest := Picks(c, days[1..]);
      PicksUnfold(c, days);
      Regroup(recs, m, a, rest);
      if |recs + m| < MaxRecommendations {
        assert Phase1(c, days, recs) == Phase1(c, days[1..], recs + m + a);
        Phase1IsCappedPicks(c, days[1..], recs + m + a);
      } else {
        assert Phase1(c, days, recs) == recs + m;
        CapPrefix(recs + m, a + rest);
      }
    }
  }

  lemma Regroup(r: seq<Interval>, m: seq<Interval>, a: seq<Interval>, rest: seq<Interval>)
    ensures r + (m + a + rest) == (r + m + a) + rest
    ensures r + (m + a + rest) == (r + m) + (a + rest)
  {
  }

  /** The fill-in loop's early exit only cuts the filtered candidate list. */
  lemma {:induction false} FillIsCappedUnpicked(c: seq<Interval>, existing: set<int>, recs: seq<Interval>)
    requires |recs| <= MaxRecommendations
    ensures Fill(c, existing, recs) == Cap(recs + Unpicked(c, existing))
  {
    if c == [] {
      assert recs + Unpicked(c, existing) == recs;
    } else if |recs| < MaxRecommendations {
      var head := if c[0].start !in existing then [c[0]] else [];
      if c[0].start !in existing {
        assert Fill(c, existing, recs) == Fill(c[1..], existing, recs + [c[0]]);
      } else {
        assert Fill(c, existing, recs) == Fill(c[1..], existing, recs);
        assert recs + head == recs;
      }
      FillIsCappedUnpicked(c[1..], existing, recs + head);
      assert Unpicked(c, existing) == head + Unpicked(c[1..], existing);
      assert recs + Unpicked(c, existing) == (recs + head) + Unpicked(c[1..], existing);
    }
  }

  /** The diversifier is the capped bucket heads followed by the candidates
      not among them, cut to nine. */
  lemma DiversifyShape(c: seq<Interval>)
    ensures var heads := Cap(Picks(c, SortedDays(c)));
      Diversify(c) == Cap(heads + Unpicked(c, Starts(heads)))
  {
    var picks := Picks(c, SortedDays(c));
    Phase1IsCappedPicks(c, SortedDays(c), []);
    assert [] + picks == picks;
    var heads := Cap(picks);
    if |heads| < MaxRecommendations {
      FillIsCappedUnpicked(c, Starts(heads), heads);
    }
  }

  // ---------------------------------------------------------------------
  // Properties of the bucket heads
  // ---------------------------------------------------------------------

  /** Indexing into three concatenated lists. */
  lemma ConcatAt(m: seq<Interval>, a: seq<Interval>, rest: seq<Interval>, i: int)
    requires 0 <= i < |m + a + rest|
    ensures |m + a + rest| == |m| + |a| + |rest|
    ensures i < |m| ==> (m + a + rest)[i] == m[i]
    ensures |m| <= i < |m| + |a| ==> (m + a + rest)[i] == a[i - |m|]
    ensures |m| + |a| <= i ==> (m + a + rest)[i] == rest[i - |m| - |a|]
  {
  }

  /** The heads of `days`: the morning and afternoon heads of the first date,
      then those of the later dates. */
  lemma PicksLength(c: seq<Interval>, days: seq<int>)
    requires days != []
    ensures |Picks(c, days)| == |FirstIn(c, 2 * days[0])| + |FirstIn(c, 2 * days[0] + 1)| + |Picks(c, days[1..])|
  {
    PicksUnfold(c, days);
  }

  lemma PicksAtMorning(c: seq<Interval>, days: seq<int>)
    requires days != [] && FirstIn(c, 2 * days[0]) != []
    ensures Picks(c, days)[0] == FirstIn(c, 2 * days[0])[0]
    ensures Bucket(Picks(c, days)[0]) == 2 * days[0]
  {
    FirstInBucket(c, 2 * days[0]);
    PicksUnfold(c, days);
    ConcatAt(FirstIn(c, 2 * days[0]), FirstIn(c, 2 * days[0] + 1), Picks(c, days[1..]), 0);
  }

  lemma PicksAtAfternoon(c: seq<Interval>, days: seq<int>)
    requires days != [] && FirstIn(c, 2 * days[0] + 1) != []
    ensures |FirstIn(c, 2 * days[0])| < |Picks(c, days)|
    ensures Picks(c, days)[|FirstIn(c, 2 * days[0])|] == FirstIn(c, 2 * days[0] + 1)[0]
    ensures Bucket(Picks(c, days)[|FirstIn(c, 2 * days[0])|]) == 2 * days[0] + 1
  {
    FirstInBucket(c, 2 * days[0] + 1);
    PicksUnfold(c, days);
    ConcatAt(FirstIn(c, 2 * days[0]), FirstIn(c, 2 * days[0] + 1), Picks(c, days[1..]), |FirstIn(c, 2 * days[0])|);
  }

  lemma PicksAtLater(c: seq<Interval>, days: seq<int>, k: int)
    requires days != [] && 0 <= k < |Picks(c, days[1..])|
    ensures |FirstIn(c, 2 * days[0])| + |FirstIn(c, 2 * days[0] + 1)| + k < |Picks(c, days)|
    ensures Picks(c, days)[|FirstIn(c, 2 * days[0])| + |FirstIn(c, 2 * days[0] + 1)| + k] == Picks(c, days[1..])[k]
  {
    var m := FirstIn(c, 2 * days[0]);
    var a := FirstIn(c, 2 * days[0] + 1);
    PicksUnfold(c, days);
    ConcatAt(m, a, Picks(c, days[1..]), |m| + |a| + k);
  }

  /** A bucket is twice the date, plus one for the afternoon. */
  lemma BucketOfDay(x: Interval)
    ensures 2 * Day(x.start) <= Bucket(x) <= 2 * Day(x.start) + 1
  {
  }

  /** The first date's heads are heads, of that date. */
  lemma FirstDateHead(c: seq<Interval>, days: seq<int>, i: int)
    requires days != [] && 0 <= i < |FirstIn(c, 2 * days[0])| + |FirstIn(c, 2 * days[0] + 1)|
    ensures i < |Picks(c, days)|
    ensures Picks(c, days)[i] in c && Day(Picks(c, days)[i].start) == days[0]
    ensures IsHead(c, Picks(c, days)[i])
  {
    if i < |FirstIn(c, 2 * days[0])| {
      PicksAtMorning(c, days);
      FirstInHead(c, 2 * days[0]);
      DayOfBucket(FirstIn(c, 2 * days[0])[0], days[0]);
    } else {
      PicksAtAfternoon(c, days);
      FirstInHead(c, 2 * days[0] + 1);
      DayOfBucket(FirstIn(c, 2 * days[0] + 1)[0], days[0]);
    }
  }

  /** The first date's heads lie in its two buckets. */
  lemma FirstDateBucket(c: seq<Interval>, days: seq<int>, i: int)
    requires days != [] && 0 <= i < |FirstIn(c, 2 * days[0])| + |FirstIn(c, 2 * days[0] + 1)|
    ensures i < |Picks(c, days)|
    ensures 2 * days[0] <= Bucket(Picks(c, days)[i]) <= 2 * days[0] + 1
  {
    if i < |FirstIn(c, 2 * days[0])| {
      PicksAtMorning(c, days);
    } else {
      PicksAtAfternoon(c, days);
    }
  }

  lemma DayOfBucket(x: Interval, d: int)
    requires Bucket(x) == 2 * d || Bucket(x) == 2 * d + 1
    ensures Day(x.start) == d
  {
    BucketOfDay(x);
  }

  /** Each head is the first candidate of its bucket, on one of `days`. */
  lemma {:induction false} PicksHeadAt(c: seq<Interval>, days: seq<int>, i: int)
    requires 0 <= i < |Picks(c, days)|
    ensures Picks(c, days)[i] in c && Day(Picks(c, days)[i].start) in days
    ensures IsHead(c, Picks(c, days)[i])
    decreases |days|
  {
    var n := |FirstIn(c, 2 * days[0])| + |FirstIn(c, 2 * days[0] + 1)|;
    PicksLength(c, days);
    if i < n {
      FirstDateHead(c, days, i);
    } else {
      PicksAtLater(c, days, i - n);
      PicksHeadAt(c, days[1..], i - n);
      var x := Picks(c, days[1..])[i - n];
      var k :| 0 <= k < |days[1..]| && days[1..][k] == Day(x.start);
      assert days[k + 1] == Day(x.start);
    }
  }

  /** The heads of the later dates lie in later buckets than the first date's. */
  lemma PicksLaterBuckets(c: seq<Interval>, days: seq<int>, k: int)
    requires days != [] && Increasing(days) && 0 <= k < |Picks(c, days[1..])|
    ensures Bucket(Picks(c, days[1..])[k]) > 2 * days[0] + 1
  {
    var y := Picks(c, days[1..])[k];
    PicksHeadAt(c, days[1..], k);
    var n :| 0 <= n < |days[1..]| && days[1..][n] == Day(y.start);
    assert days[0] < days[n + 1];
    BucketOfDay(y);
  }

  lemma PicksFromDays(c: seq<Interval>, days: seq<int>)
    ensures forall i :: 0 <= i < |Picks(c, days)| ==>
      Picks(c, days)[i] in c && Day(Picks(c, days)[i].start) in days
  {
    forall i | 0 <= i < |Picks(c, days)|
      ensures Picks(c, days)[i] in c && Day(Picks(c, days)[i].start) in days
    {
      PicksHeadAt(c, days, i);
    }
  }

  lemma PicksAreHeads(c: seq<Interval>, days: seq<int>)
    ensures forall i :: 0 <= i < |Picks(c, days)| ==> IsHead(c, Picks(c, days)[i])
  {
    forall i | 0 <= i < |Picks(c, days)| ensures IsHead(c, Picks(c, days)[i]) {
      PicksHeadAt(c, days, i);
    }
  }

  /** Two heads in list order have strictly increasing buckets. */
  lemma {:induction false} PicksIncreasingAt(c: seq<Interval>, days: seq<int>, i: int, j: int)
    requires Increasing(days)
    requires 0 <= i < j < |Picks(c, days)|
    ensures Bucket(Picks(c, days)[i]) < Bucket(Picks(c, days)[j])
    decreases |days|
  {
    var n := |FirstIn(c, 2 * days[0])| + |FirstIn(c, 2 * days[0] + 1)|;
    PicksLength(c, days);
    if j < n {
      assert i == 0 && j == |FirstIn(c, 2 * days[0])| == 1;
      PicksAtMorning(c, days);
      PicksAtAfternoon(c, days);
    } else if i < n {
      FirstDateBucket(c, days, i);
      PicksAtLater(c, days, j - n);
      PicksLaterBuckets(c, days, j - n);
    } else {
      PicksAtLater(c, days, i - n);
      PicksAtLater(c, days, j - n);
      IncreasingTail(days);
      PicksIncreasingAt(c, days[1..], i - n, j - n);
    }
  }

  lemma IncreasingTail(xs: seq<int>)
    requires xs != [] && Increasing(xs)
    ensures Increasing(xs[1..])
  {
    forall x, y | 0 <= x < y < |xs[1..]| ensures xs[1..][x] < xs[1..][y] {
      assert xs[1..][x] == xs[x + 1] && xs[1..][y] == xs[y + 1];
    }
  }

  /** Along the heads, buckets strictly increase: dates ascend, and within a
      date the morning head precedes the afternoon head. */
  lemma PicksIncreasing(c: seq<Interval>, days: seq<int>)
    requires Increasing(days)
    ensures forall i, j :: 0 <= i < j < |Picks(c, days)| ==>
      Bucket(Picks(c, days)[i]) < Bucket(Picks(c, days)[j])
  {
    forall i, j | 0 <= i < j < |Picks(c, days)|
      ensures Bucket(Picks(c, days)[i]) < Bucket(Picks(c, days)[j])
    {
      PicksIncreasingAt(c, days, i, j);
    }
  }

  /** The bucket of any candidate has a head. */
  lemma FirstInOf(c: seq<Interval>, j: int)
    requires 0 <= j < |c|
    ensures FirstIn(c, Bucket(c[j])) != []
  {
    FirstInSpec(c, Bucket(c[j]));
  }

  lemma {:induction false} PicksComplete(c: seq<Interval>, days: seq<int>)
    ensures forall j :: 0 <= j < |c| && Day(c[j].start) in days ==>
      exists i :: 0 <= i < |Picks(c, days)| && Bucket(Picks(c, days)[i]) == Bucket(c[j])
  {
    if days != [] {
      PicksComplete(c, days[1..]);
      var m := FirstIn(c, 2 * days[0]);
      var a := FirstIn(c, 2 * days[0] + 1);
      var rest := Picks(c, days[1..]);
      assert Picks(c, days) == m + a + rest;
      forall j | 0 <= j < |c| && Day(c[j].start) in days
        ensures exists i :: 0 <= i < |Picks(c, days)| && Bucket(Picks(c, days)[i]) == Bucket(c[j])
      {
        FirstInOf(c, j);
        FirstInSpec(c, Bucket(c[j]));
        if Bucket(c[j]) == 2 * days[0] {
          assert Picks(c, days)[0] == m[0];
        } else if Bucket(c[j]) == 2 * days[0] + 1 {
          assert Picks(c, days)[|m|] == a[0];
        } else {
          assert Day(c[j].start) in days[1..];
          var i :| 0 <= i < |rest| && Bucket(rest[i]) == Bucket(c[j]);
          assert Picks(c, days)[i + |m| + |a|] == rest[i];
        }
      }
    }
  }

  /** The first phase's list: every element is the first candidate of its
      bucket, buckets strictly increase (dates ascending, morning before
      afternoon, one head per bucket), and every non-empty bucket has its head
      in the list. */
  lemma PicksSpec(c: seq<Interval>)
    ensures var p := Picks(c, SortedDays(c));
      && (forall i :: 0 <= i < |p| ==> IsHead(c, p[i]))
      && (forall i, j :: 0 <= i < j < |p| ==> Bucket(p[i]) < Bucket(p[j]))
      && (forall j :: 0 <= j < |c| ==> exists i :: 0 <= i < |p| && Bucket(p[i]) == Bucket(c[j]))
  {
    PicksAreHeads(c, SortedDays(c));
    PicksIncreasing(c, SortedDays(c));
    PicksComplete(c, SortedDays(c));
  }

  // ---------------------------------------------------------------------
  // Properties of the fill-in list
  // ---------------------------------------------------------------------

  /** The fill-in list is exactly the candidates whose start is not excluded,
      in candidate order. */
  lemma {:induction false} UnpickedMembers(c: seq<Interval>, existing: set<int>)
    ensures forall x :: x in Unpicked(c, existing) <==> x in c && x.start !in existing
  {
    if c != [] {
      UnpickedMembers(c[1..], existing);
      assert forall x :: x in c <==> x == c[0] || x in c[1..];
    }
  }

  lemma {:induction false} UnpickedChronological(c: seq<Interval>, existing: set<int>)
    requires Chronological(c)
    ensures Chronological(Unpicked(c, existing))
  {
    if c != [] {
      var u := Unpicked(c[1..], existing);
      UnpickedChronological(c[1..], existing);
      UnpickedMembers(c[1..], existing);
      var head := if c[0].start !in existing then [c[0]] else [];
      assert Unpicked(c, existing) == head + u;
      forall k | 0 <= k < |u| ensures c[0].start < u[k].start {
        assert u[k] in c[1..];
        var j :| 0 <= j < |c[1..]| && c[1..][j] == u[k];
        assert c[j + 1] == u[k];
      }
    }
  }

  lemma {:induction false} UnpickedDistinct(c: seq<Interval>, existing: set<int>)
    requires DistinctStarts(c)
    ensures DistinctStarts(Unpicked(c, existing))
  {
    if c != [] {
      var u := Unpicked(c[1..], existing);
      UnpickedDistinct(c[1..], existing);
      UnpickedMembers(c[1..], existing);
      var head := if c[0].start !in existing then [c[0]] else [];
      assert Unpicked(c, existing) == head + u;
      forall k | 0 <= k < |u| ensures c[0].start != u[k].start {
        assert u[k] in c[1..];
        var j :| 0 <= j < |c[1..]| && c[1..][j] == u[k];
        assert c[j + 1] == u[k];
      }
    }
  }

  lemma {:induction false} UnpickedCount(c: seq<Interval>, existing: set<int>)
    requires DistinctStarts(c)
    ensures |Unpicked(c, existing)| == |c| - |existing * Starts(c)|
  {
    if c != [] {
      UnpickedCount(c[1..], existing);
      StartsCons(c);
      assert c[0].start !in Starts(c[1..]);
      if c[0].start in existing {
        assert existing * Starts(c) == (existing * Starts(c[1..])) + {c[0].start};
      } else {
        assert existing * Starts(c) == existing * Starts(c[1..]);
      }
    }
  }

  // ---------------------------------------------------------------------
  // What the diversifier promises
  // ---------------------------------------------------------------------

  lemma CapFacts(s: seq<Interval>)
    ensures |Cap(s)| == Min(MaxRecommendations, |s|)
    ensures forall i :: 0 <= i < |Cap(s)| ==> Cap(s)[i] == s[i]
    ensures DistinctStarts(s) ==> DistinctStarts(Cap(s))
    ensures forall x :: x in Cap(s) ==> x in s
  {
  }

  /** At most nine recommendations, each of them a candidate; none exactly
      when there are no candidates. */
  lemma DiversifyBounds(c: seq<Interval>)
    ensures |Diversify(c)| <= MaxRecommendations
    ensures forall x :: x in Diversify(c) ==> x in c
    ensures Diversify(c) == [] <==> c == []
  {
    if c != [] {
      DiversifyShape(c);
      var p := Picks(c, SortedDays(c));
      var heads := Cap(p);
      var u := Unpicked(c, Starts(heads));
      PicksFromDays(c, SortedDays(c));
      UnpickedMembers(c, Starts(heads));
      CapFacts(p);
      CapFacts(heads + u);
      assert forall x :: x in heads + u ==> x in heads || x in u;
      assert Day(c[0].start) in SortedDays(c);
      PicksComplete(c, SortedDays(c));
      assert |p| > 0;
    }
  }

  /** The capped bucket heads have distinct starts, all of them candidate starts. */
  lemma HeadsDistinct(c: seq<Interval>)
    ensures DistinctStarts(Cap(Picks(c, SortedDays(c))))
    ensures Starts(Cap(Picks(c, SortedDays(c)))) <= Starts(c)
  {
    var p := Picks(c, SortedDays(c));
    var heads := Cap(p);
    PicksFromDays(c, SortedDays(c));
    PicksIncreasing(c, SortedDays(c));
    CapFacts(p);
    assert DistinctStarts(p) by {
      forall i, j | 0 <= i < j < |p| ensures p[i].start != p[j].start {
        assert Bucket(p[i]) < Bucket(p[j]);
      }
    }
    forall x | x in Starts(heads) ensures x in Starts(c) {
      var i :| 0 <= i < |heads| && heads[i].start == x;
      assert heads[i] in c;
      var k :| 0 <= k < |c| && c[k] == heads[i];
    }
  }

  /** Two lists with distinct starts and no start in common concatenate to one. */
  lemma AppendDistinct(a: seq<Interval>, b: seq<Interval>)
    requires DistinctStarts(a) && DistinctStarts(b)
    requires forall k :: 0 <= k < |b| ==> b[k].start !in Starts(a)
    ensures DistinctStarts(a + b)
  {
    var all := a + b;
    forall i, j | 0 <= i < j < |all| ensures all[i].start != all[j].start {
      if j >= |a| {
        assert all[j] == b[j - |a|];
        if i < |a| {
          assert all[i].start in Starts(a);
        } else {
          assert all[i] == b[i - |a|];
        }
      }
    }
  }

  /** With distinct candidate starts, the result has min(9, n) elements and
      no two share a start. */
  lemma DiversifyCount(c: seq<Interval>)
    requires DistinctStarts(c)
    ensures |Diversify(c)| == Min(MaxRecommendations, |c|)
    ensures DistinctStarts(Diversify(c))
  {
    if c != [] {
      DiversifyShape(c);
      var heads := Cap(Picks(c, SortedDays(c)));
      var u := Unpicked(c, Starts(heads));
      HeadsDistinct(c);
      UnpickedMembers(c, Starts(heads));
      UnpickedDistinct(c, Starts(heads));
      UnpickedCount(c, Starts(heads));
      DistinctStartsCard(heads);
      assert Starts(heads) * Starts(c) == Starts(heads);
      forall k | 0 <= k < |u| ensures u[k].start !in Starts(heads) {
        assert u[k] in u;
      }
      AppendDistinct(heads, u);
      CapFacts(heads + u);
    }
  }

  lemma BucketMonotone(s: Interval, t: Interval)
    requires s.start <= t.start
    ensures Bucket(s) <= Bucket(t)
  {
    Monotone(s.start, t.start);
  }

  /** In a chronological list the first date is the first candidate's. */
  lemma FirstDay(c: seq<Interval>)
    requires Chronological(c) && c != []
    ensures SortedDays(c) != [] && SortedDays(c)[0] == Day(c[0].start)
  {
    var days := SortedDays(c);
    var d0 := Day(c[0].start);
    assert d0 in days;
    assert days[0] in days;
    var k :| 0 <= k < |c| && Day(c[k].start) == days[0];
    Monotone(c[0].start, c[k].start);
    var m :| 0 <= m < |days| && days[m] == d0;
    assert days[0] <= days[m];
  }

  /** In a chronological list the first candidate heads the earliest bucket. */
  lemma FirstHead(c: seq<Interval>)
    requires Chronological(c) && c != []
    ensures var d0 := Day(c[0].start);
      FirstIn(c, 2 * d0) + FirstIn(c, 2 * d0 + 1) != [] &&
      (FirstIn(c, 2 * d0) + FirstIn(c, 2 * d0 + 1))[0] == c[0]
  {
    var d0 := Day(c[0].start);
    if !Morning(c[0]) {
      forall i | 0 <= i < |c| ensures Bucket(c[i]) != 2 * d0 {
        if i > 0 { BucketMonotone(c[0], c[i]); }
      }
      FirstInSpec(c, 2 * d0);
    }
  }

  /** For a chronological list the first bucket head is the first candidate. */
  lemma PicksFirst(c: seq<Interval>)
    requires Chronological(c) && c != []
    ensures Picks(c, SortedDays(c)) != [] && Picks(c, SortedDays(c))[0] == c[0]
  {
    FirstDay(c);
    FirstHead(c);
    PicksUnfold(c, SortedDays(c));
  }

  lemma PicksUnfold(c: seq<Interval>, days: seq<int>)
    requires days != []
    ensures Picks(c, days) == FirstIn(c, 2 * days[0]) + FirstIn(c, 2 * days[0] + 1) + Picks(c, days[1..])
  {
  }

  /** For a chronological candidate list the first recommendation is the
      earliest candidate. */
  lemma DiversifyFirst(c: seq<Interval>)
    requires Chronological(c) && c != []
    ensures |Diversify(c)| > 0 && Diversify(c)[0] == c[0]
  {
    DiversifyShape(c);
    PicksFirst(c);
    var p := Picks(c, SortedDays(c));
    var heads := Cap(p);
    var all := heads + Unpicked(c, Starts(heads));
    assert heads[0] == c[0];
    assert all[0] == c[0];
  }
}

=== FILE: download.dfy ===
/** The file-name check of `download_file`, the path it serves from, and the
    names the report and slide generators give their files. The file-system
    lookup is a parameter. */
module Download {
  import opened Basics

  const BadNameMessage: string := "잘못된 파일 이름입니다."
  const NotFoundMessage: string := "파일을 찾을 수 없거나 만료되었습니다."

  /** The route's answer: a 400 or 404 error with its detail, or the file
      at `path` sent under `filename`. */
  datatype Response = BadRequest(detail: string) | NotFound(detail: string) | Serve(path: string, filename: string)

  function StatusCode(r: Response): int {
    match r
    case BadRequest(_) => 400
    case NotFound(_) => 404
    case Serve(_, _) => 200
  }

  /** A name that could step out of the temporary directory. */
  predicate Unsafe(name: string) {
    Contains(name, "..") || Contains(name, "/") || Contains(name, "\\")
  }

  /** POSIX `os.path.join(dir, name)`: an absolute `name` replaces `dir`,
      otherwise a separator is added unless `dir` is empty or ends in one. */
  function Join(dir: string, name: string): string {
    if |name| > 0 && name[0] == '/' then name
    else if dir == [] || dir[|dir| - 1] == '/' then dir + name
    else dir + "/" + name
  }

  /** `download_file`: reject a suspicious name before touching the file
      system, else serve the file from `tempDir` when it exists. */
  function DownloadFile(name: string, tempDir: string, present: string -> bool): (r: Response)
    ensures r.BadRequest? <==> Unsafe(name)
    ensures r.BadRequest? ==> r.detail == BadNameMessage
    ensures r.NotFound? ==> r.detail == NotFoundMessage && !present(Join(tempDir, name))
    ensures r.Serve? ==> r.filename == name && r.path == Join(tempDir, name) && present(r.path)
    ensures !Unsafe(name) ==> (r.Serve? <==> present(Join(tempDir, name)))
  {
    if Unsafe(name) then BadRequest(BadNameMessage)
    else
      var path := Join(tempDir, name);
      if present(path) then Serve(path, name) else NotFound(NotFoundMessage)
  }

  /** A rejected name is answered with 400 whatever the file system holds. */
  lemma RejectsBeforeLookup(name: string, tempDir: string, e1: string -> bool, e2: string -> bool)
    requires Unsafe(name)
    ensures DownloadFile(name, tempDir, e1) == DownloadFile(name, tempDir, e2)
    ensures StatusCode(DownloadFile(name, tempDir, e1)) == 400
  {
  }

  /** The directory as `Join` extends it: with a trailing separator. */
  function DirPrefix(dir: string): string {
    if dir == [] || dir[|dir| - 1] == '/' then dir else dir + "/"
  }

  /** An accepted name is served from directly inside the temporary
      directory: the path is the directory, a separator, and the name, which
      holds no separator and no `..`. */
  lemma ServedPathConfined(name: string, tempDir: string)
    requires !Unsafe(name)
    ensures Join(tempDir, name) == DirPrefix(tempDir) + name
    ensures '/' !in name && '\\' !in name && !Contains(name, "..")
  {
    ContainsChar(name, '/');
    ContainsChar(name, '\\');
  }

  /** A single dot, as in `x.docx`, is allowed. */
  lemma SingleDotAllowed()
    ensures !Unsafe("x.docx")
  {
    assert "x" + ".docx" == "x.docx";
    assert ".docx"[1..] == "docx";
    NoDoubleDot("x", ".docx");
    ContainsChar("x.docx", '/');
    ContainsChar("x.docx", '\\');
  }

  predicate HexOrHyphen(c: char) {
    ('0' <= c <= '9') || ('a' <= c <= 'f') || c == '-'
  }

  /** The extensions the generators write. */
  predicate GeneratedExtension(ext: string) {
    ext == ".docx" || ext == ".pptx"
  }

  /** A dotless stem followed by an extension with one leading dot has no
      `..` in it. */
  lemma NoDoubleDot(stem: string, ext: string)
    requires '.' !in stem
    requires |ext| >= 2 && ext[0] == '.' && '.' !in ext[1..]
    ensures !Contains(stem + ext, "..")
  {
    var x := stem + ext;
    forall i | 0 <= i <= |x| ensures !OccursAt(x, "..", i) {
      if i + 2 <= |x| {
        if i < |stem| {
          assert x[i] == stem[i] != '.';
          assert x[i..i + 2][0] == x[i];
        } else {
          assert x[i + 1] == ext[1..][i - |stem|] != '.';
          assert x[i..i + 2][1] == x[i + 1];
        }
      }
    }
  }

  /** Names of the form `f"{uuid4()}.docx"` or `.pptx`, a stem of hex digits
      and hyphens, always pass the check. */
  lemma GeneratedNamesPass(stem: string, ext: string)
    requires forall k :: 0 <= k < |stem| ==> HexOrHyphen(stem[k])
    requires GeneratedExtension(ext)
    ensures !Unsafe(stem + ext)
  {
    var x := stem + ext;
    assert '.' !in stem;
    NoDoubleDot(stem, ext);
    ContainsChar(x, '/');
    ContainsChar(x, '\\');
    assert '/' !in x && '\\' !in x by {
      forall k | 0 <= k < |x| ensures x[k] != '/' && x[k] != '\\' {
        if k >= |stem| { assert x[k] == ext[k - |stem|]; }
      }
    }
  }
}

=== FILE: events.dfy ===
/** The event normaliser: raw personal and group calendar records become
    busy intervals (first stage of `_find_available_slots`). */
module Events {
  import opened Basics
  import opened Clock
  import opened Intervals

  /** One timestamp field of a raw record. `Absent` stands for every falsy
      value (missing key, JSON null, empty string); `Stamp` for a string that
      ISO-8601 parsing accepts; `Unparsable` for any other non-empty string. */
  datatype FieldValue = Absent | Stamp(t: int) | Unparsable

  /** A raw event record with both spellings of its timestamp keys. */
  datatype RawEvent = RawEvent(
    start: FieldValue, startDatetime: FieldValue,
    end: FieldValue, endDatetime: FieldValue,
    allDay: bool)

  /** The event lists of a payload under both key spellings
      (`personalEvents`/`personal_events`, `groupEvents`/`group_events`);
      a missing key is an empty list. */
  datatype Payload = Payload(
    personalCamel: seq<RawEvent>, personalSnake: seq<RawEvent>,
    groupCamel: seq<RawEvent>, groupSnake: seq<RawEvent>)

  /** The bundle the calendar API returns: with or without a `data` wrapper. */
  datatype Bundle = Wrapped(data: Payload) | Bare(payload: Payload)

  /** Why normalisation aborts: a chosen timestamp that does not parse. */
  const MalformedTimestamp: string := "Invalid isoformat string"

  /** Python `a or b` on a timestamp field. */
  function PickField(a: FieldValue, b: FieldValue): FieldValue {
    if a != Absent then a else b
  }

  function StartField(e: RawEvent): FieldValue { PickField(e.start, e.startDatetime) }

  function EndField(e: RawEvent): FieldValue { PickField(e.end, e.endDatetime) }

  /** The busy interval of one record, nothing for a record missing a
      timestamp, or a failure for a timestamp that does not parse. An all-day
      record covers the business window of its start date, seconds zeroed. */
  function EventInterval(e: RawEvent): (r: Result<Option<Interval>, string>)
    ensures r.Success? && r.value.Some? <==> StartField(e).Stamp? && EndField(e).Stamp?
    ensures r.Failure? <==>
      StartField(e) != Absent && EndField(e) != Absent
      && (StartField(e) == Unparsable || EndField(e) == Unparsable)
    ensures r.Success? && r.value.Some? && e.allDay ==>
      var iv := r.value.value;
      && Day(iv.start) == Day(iv.end) == Day(StartField(e).t)
      && iv.start % DaySeconds == WindowStartHour * HourSeconds
      && iv.end % DaySeconds == WindowEndHour * HourSeconds
    ensures r.Success? && r.value.Some? && !e.allDay ==>
      r.value.value == Interval(StartField(e).t, EndField(e).t)
  {
    var s := StartField(e);
    var f := EndField(e);
    if s == Absent || f == Absent then Success(None)
    else if s == Unparsable || f == Unparsable then Failure(MalformedTimestamp)
    else if e.allDay then
      Success(Some(Interval(Midnight(s.t) + WindowStartHour * HourSeconds,
                            Midnight(s.t) + WindowEndHour * HourSeconds)))
    else Success(Some(Interval(s.t, f.t)))
  }

  /** Busy intervals of a list of records, in record order; the first
      unparsable timestamp aborts the whole batch. */
  function Normalize(events: seq<RawEvent>): Result<seq<Interval>, string> {
    if events == [] then Success([])
    else
      match EventInterval(events[0])
      case Failure(err) => Failure(err)
      case Success(first) =>
        match Normalize(events[1..])
        case Failure(err) => Failure(err)
        case Success(rest) =>
          Success((if first.Some? then [first.value] else []) + rest)
  }

  /** The per-record contributions, concatenated. */
  function Contributions(events: seq<RawEvent>): seq<Interval>
    requires forall i :: 0 <= i < |events| ==> EventInterval(events[i]).Success?
  {
    if events == [] then []
    else
      var first := EventInterval(events[0]).value;
      (if first.Some? then [first.value] else []) + Contributions(events[1..])
  }

  /** Normalisation fails exactly when some record fails, and otherwise yields
      each record's contribution in record order: one interval for each record
      with both timestamps present, none for the others. */
  lemma {:induction false} NormalizeSpec(events: seq<RawEvent>)
    ensures Normalize(events).Failure? <==>
      exists i :: 0 <= i < |events| && EventInterval(events[i]).Failure?
    ensures Normalize(events).Success? ==>
      Normalize(events).value == Contributions(events)
  {
    if events != [] {
      NormalizeSpec(events[1..]);
      if exists i :: 0 <= i < |events[1..]| && EventInterval(events[1..][i]).Failure? {
        var i :| 0 <= i < |events[1..]| && EventInterval(events[1..][i]).Failure?;
        assert EventInterval(events[i + 1]).Failure?;
      }
      if Normalize(events).Success? {
        forall i | 1 <= i < |events|
          ensures EventInterval(events[i]).Success?
        {
          assert events[i] == events[1..][i - 1];
        }
      }
    }
  }

  /** A busy interval comes from some record with both timestamps present,
      and every such record contributes its interval. */
  lemma {:induction false} ContributionsSpec(events: seq<RawEvent>)
    requires forall i :: 0 <= i < |events| ==> EventInterval(events[i]).Success?
    ensures |Contributions(events)| <= |events|
    ensures forall x :: x in Contributions(events) <==>
      exists i :: 0 <= i < |events| && EventInterval(events[i]) == Success(Some(x))
  {
    if events != [] {
      ContributionsSpec(events[1..]);
      forall x | exists i :: 0 <= i < |events| && EventInterval(events[i]) == Success(Some(x))
        ensures x in Contributions(events)
      {
        var i :| 0 <= i < |events| && EventInterval(events[i]) == Success(Some(x));
        if i > 0 { assert events[1..][i - 1] == events[i]; }
      }
      forall x | x in Contributions(events)
        ensures exists i :: 0 <= i < |events| && EventInterval(events[i]) == Success(Some(x))
      {
        var first := EventInterval(events[0]).value;
        if first.Some? && x == first.value {
          assert EventInterval(events[0]) == Success(Some(x));
        } else {
          assert x in Contributions(events[1..]);
          var i :| 0 <= i < |events[1..]| && EventInterval(events[1..][i]) == Success(Some(x));
          assert EventInterval(events[i + 1]) == Success(Some(x));
        }
      }
    }
  }

  /** The payload inside the bundle: `data` when present, else the bundle. */
  function PayloadOf(b: Bundle): Payload {
    match b
    case Wrapped(p) => p
    case Bare(p) => p
  }

  /** All records of a bundle: personal first, then group; for each, the
      camel-case list when non-empty, else the snake-case one. */
  function BundleEvents(b: Bundle): seq<RawEvent> {
    var p := PayloadOf(b);
    (if |p.personalCamel| > 0 then p.personalCamel else p.personalSnake)
      + (if |p.groupCamel| > 0 then p.groupCamel else p.groupSnake)
  }

  /** The records of a bundle are those of the non-empty camel-case lists and
      of the snake-case lists whose camel-case partner is empty; the personal
      list comes first and the group list last; the `data` wrapper changes
      nothing. */
  lemma BundleEventsSpec(b: Bundle)
    ensures var p := PayloadOf(b); var r := BundleEvents(b);
      && (forall x :: x in r <==>
           || x in p.personalCamel || (p.personalCamel == [] && x in p.personalSnake)
           || x in p.groupCamel || (p.groupCamel == [] && x in p.groupSnake))
      && (p.personalCamel != [] ==> |p.personalCamel| <= |r| && r[..|p.personalCamel|] == p.personalCamel)
      && (p.personalCamel == [] ==> |p.personalSnake| <= |r| && r[..|p.personalSnake|] == p.personalSnake)
      && (p.groupCamel != [] ==> |p.groupCamel| <= |r| && r[|r| - |p.groupCamel|..] == p.groupCamel)
      && (p.groupCamel == [] ==> |p.groupSnake| <= |r| && r[|r| - |p.groupSnake|..] == p.groupSnake)
    ensures BundleEvents(Wrapped(PayloadOf(b))) == BundleEvents(Bare(PayloadOf(b)))
  {
    var p := PayloadOf(b);
    var personal := if |p.personalCamel| > 0 then p.personalCamel else p.personalSnake;
    var group := if |p.groupCamel| > 0 then p.groupCamel else p.groupSnake;
    var r := BundleEvents(b);
    assert r == personal + group;
    assert r[..|personal|] == personal;
    assert r[|r| - |group|..] == group;
  }

  /** A non-empty camel-case list hides its snake-case partner entirely. */
  lemma CamelHidesSnake(p: Payload, personalSnake: seq<RawEvent>, groupSnake: seq<RawEvent>)
    requires p.personalCamel != [] && p.groupCamel != []
    ensures BundleEvents(Bare(p.(personalSnake := personalSnake, groupSnake := groupSnake)))
      == BundleEvents(Bare(p))
  {
  }

  /** The first stage: every busy interval of the bundle, unordered. */
  function BusyIntervals(b: Bundle): Result<seq<Interval>, string> {
    Normalize(BundleEvents(b))
  }
}

=== FILE: intervals.dfy ===
/** Time ranges: busy intervals and candidate meeting slots alike. */
module Intervals {
  import opened Clock

  datatype Interval = Interval(start: int, end: int)

  /** The source's collision test between a meeting of `minutes` starting at
      `t` and a busy interval `b`. */
  predicate Collides(t: int, minutes: int, b: Interval) {
    t < b.end && t + minutes * MinuteSeconds > b.start
  }

  /** Slot `s` collides with no interval of `busy` under the source's test. */
  predicate FreeOf(s: Interval, busy: seq<Interval>) {
    forall i :: 0 <= i < |busy| ==> !(s.start < busy[i].end && s.end > busy[i].start)
  }

  /** Point `p` lies in some interval of `s`. */
  predicate Covered(s: seq<Interval>, p: int) {
    exists i :: 0 <= i < |s| && s[i].start <= p < s[i].end
  }

  /** Interval `x` lies within interval `m`. */
  predicate Within(x: Interval, m: Interval) {
    m.start <= x.start && x.end <= m.end
  }

  function Starts(s: seq<Interval>): set<int> {
    set i | 0 <= i < |s| :: s[i].start
  }

  function Ends(s: seq<Interval>): set<int> {
    set i | 0 <= i < |s| :: s[i].end
  }

  predicate SortedByStart(s: seq<Interval>) {
    forall i, j :: 0 <= i < j < |s| ==> s[i].start <= s[j].start
  }

  /** Starts strictly increase: chronological and free of duplicate starts. */
  predicate Chronological(s: seq<Interval>) {
    forall i, j :: 0 <= i < j < |s| ==> s[i].start < s[j].start
  }

  /** No two elements share a start. */
  predicate DistinctStarts(s: seq<Interval>) {
    forall i, j :: 0 <= i < j < |s| ==> s[i].start != s[j].start
  }

  lemma StartsCons(s: seq<Interval>)
    requires s != []
    ensures Starts(s) == {s[0].start} + Starts(s[1..])
  {
    assert s == [s[0]] + s[1..];
    StartsEndsAppend([s[0]], s[1..]);
    assert Starts([s[0]]) == {s[0].start};
  }

  /** With distinct starts, there are as many starts as elements. */
  lemma {:induction false} DistinctStartsCard(s: seq<Interval>)
    requires DistinctStarts(s)
    ensures |Starts(s)| == |s|
  {
    if s != [] {
      StartsCons(s);
      DistinctStartsCard(s[1..]);
      assert s[0].start !in Starts(s[1..]);
    }
  }

  lemma StartsEndsAppend(a: seq<Interval>, b: seq<Interval>)
    ensures Starts(a + b) == Starts(a) + Starts(b)
    ensures Ends(a + b) == Ends(a) + Ends(b)
  {
    forall x | x in Starts(a + b) ensures x in Starts(a) + Starts(b) {
      var i :| 0 <= i < |a + b| && (a + b)[i].start == x;
      if i >= |a| { assert b[i - |a|] == (a + b)[i]; }
    }
    forall x | x in Starts(a) + Starts(b) ensures x in Starts(a + b) {
      if x in Starts(a) {
        var i :| 0 <= i < |a| && a[i].start == x;
        assert (a + b)[i] == a[i];
      } else {
        var i :| 0 <= i < |b| && b[i].start == x;
        assert (a + b)[i + |a|] == b[i];
      }
    }
    forall x | x in Ends(a + b) ensures x in Ends(a) + Ends(b) {
      var i :| 0 <= i < |a + b| && (a + b)[i].end == x;
      if i >= |a| { assert b[i - |a|] == (a + b)[i]; }
    }
    forall x | x in Ends(a) + Ends(b) ensures x in Ends(a + b) {
      if x in Ends(a) {
        var i :| 0 <= i < |a| && a[i].end == x;
        assert (a + b)[i] == a[i];
      } else {
        var i :| 0 <= i < |b| && b[i].end == x;
        assert (a + b)[i + |a|] == b[i];
      }
    }
  }
}

=== FILE: merge.dfy ===
/** The interval merger: sort the busy intervals by start, then coalesce
    strictly overlapping neighbours (second stage of `_find_available_slots`). */
module Merge {
  import opened Basics
  import opened Intervals

  // ---------------------------------------------------------------------
  // Stable sort by start (Python's `list.sort(key=...)` is stable)
  // ---------------------------------------------------------------------

  /** Inserts `x` before the first element that does not start earlier. */
  function Insert(sorted: seq<Interval>, x: Interval): seq<Interval> {
    if sorted == [] || x.start <= sorted[0].start then [x] + sorted
    else [sorted[0]] + Insert(sorted[1..], x)
  }

  lemma {:induction false} InsertPermutes(sorted: seq<Interval>, x: Interval)
    ensures multiset(Insert(sorted, x)) == multiset(sorted) + multiset{x}
  {
    if sorted != [] && x.start > sorted[0].start {
      InsertPermutes(sorted[1..], x);
      assert sorted == [sorted[0]] + sorted[1..];
    }
  }

  lemma {:induction false} InsertSorted(sorted: seq<Interval>, x: Interval)
    requires SortedByStart(sorted)
    ensures SortedByStart(Insert(sorted, x))
  {
    if sorted != [] && x.start > sorted[0].start {
      var tail := Insert(sorted[1..], x);
      InsertSorted(sorted[1..], x);
      InsertPermutes(sorted[1..], x);
      forall j | 0 <= j < |tail| ensures sorted[0].start <= tail[j].start {
        assert tail[j] in multiset(tail);
        if tail[j] != x {
          assert tail[j] in multiset(sorted[1..]);
          assert tail[j] in sorted[1..];
        }
      }
    }
  }

  /** Insertion sort from the back of the list, so that among equal starts
      the earlier element ends up first. */
  function Sort(s: seq<Interval>): seq<Interval> {
    if s == [] then [] else Insert(Sort(s[1..]), s[0])
  }

  /** The sort neither loses nor invents intervals. */
  lemma {:induction false} SortPermutes(s: seq<Interval>)
    ensures multiset(Sort(s)) == multiset(s)
  {
    if s != [] {
      SortPermutes(s[1..]);
      InsertPermutes(Sort(s[1..]), s[0]);
      assert s == [s[0]] + s[1..];
    }
  }

  lemma {:induction false} SortSorted(s: seq<Interval>)
    ensures SortedByStart(Sort(s))
  {
    if s != [] {
      SortSorted(s[1..]);
      InsertSorted(Sort(s[1..]), s[0]);
    }
  }

  /** The elements of `s` that start at `k`, in order. */
  function WithStart(s: seq<Interval>, k: int): seq<Interval> {
    if s == [] then []
    else (if s[0].start == k then [s[0]] else []) + WithStart(s[1..], k)
  }

  lemma {:induction false} WithStartNone(s: seq<Interval>, k: int)
    requires forall i :: 0 <= i < |s| ==> s[i].start != k
    ensures WithStart(s, k) == []
  {
    if s != [] {
      WithStartNone(s[1..], k);
    }
  }

  lemma WithStartCons(h: Interval, t: seq<Interval>, k: int)
    ensures WithStart([h] + t, k) == (if h.start == k then [h] else []) + WithStart(t, k)
  {
    assert ([h] + t)[0] == h && ([h] + t)[1..] == t;
  }

  /** Inserting `x` puts it ahead of every element starting at `x.start`,
      since it only passes elements that start earlier. */
  lemma {:induction false} InsertStable(sorted: seq<Interval>, x: Interval, k: int)
    ensures WithStart(Insert(sorted, x), k) == (if x.start == k then [x] else []) + WithStart(sorted, k)
  {
    if sorted == [] || x.start <= sorted[0].start {
      WithStartCons(x, sorted, k);
    } else {
      var tail := Insert(sorted[1..], x);
      InsertStable(sorted[1..], x, k);
      WithStartCons(sorted[0], tail, k);
      WithStartCons(sorted[0], sorted[1..], k);
      assert [sorted[0]] + sorted[1..] == sorted;
      var h := if sorted[0].start == k then [sorted[0]] else [];
      var xs := if x.start == k then [x] else [];
      calc {
        WithStart(Insert(sorted, x), k);
        h + WithStart(tail, k);
        h + (xs + WithStart(sorted[1..], k));
        { assert x.start == k ==> h == []; }
        xs + (h + WithStart(sorted[1..], k));
        xs + WithStart(sorted, k);
      }
    }
  }

  /** The sort is stable: elements with equal starts keep their relative
      order, and together with sortedness this pins the result down. */
  lemma {:induction false} SortStable(s: seq<Interval>, k: int)
    ensures WithStart(Sort(s), k) == WithStart(s, k)
  {
    if s != [] {
      SortStable(s[1..], k);
      InsertStable(Sort(s[1..]), s[0], k);
      WithStartCons(s[0], s[1..], k);
      assert [s[0]] + s[1..] == s;
    }
  }

  // ---------------------------------------------------------------------
  // The coalescing scan
  // ---------------------------------------------------------------------

  /** The merged busy set invariant: sorted by start, and each interval ends
      no later than its successor starts (touching is allowed). */
  predicate Separated(s: seq<Interval>) {
    && SortedByStart(s)
    && forall i :: 0 <= i < |s| - 1 ==> s[i].end <= s[i + 1].start
  }

  function Last(s: seq<Interval>): Interval
    requires s != []
  {
    s[|s| - 1]
  }

  /** One iteration of the scan: `cur` extends the running interval when it
      starts strictly before that interval ends, and opens a new one otherwise. */
  function Absorb(acc: seq<Interval>, cur: Interval): (r: seq<Interval>)
    requires acc != []
    ensures r != []
  {
    var last := Last(acc);
    if cur.start < last.end then acc[..|acc| - 1] + [Interval(last.start, Max(last.end, cur.end))]
    else acc + [cur]
  }

  function MergeLoop(acc: seq<Interval>, rest: seq<Interval>): (r: seq<Interval>)
    requires acc != []
    ensures r != []
    decreases |rest|
  {
    if rest == [] then acc else MergeLoop(Absorb(acc, rest[0]), rest[1..])
  }

  /** The merged busy set of an unordered list of busy intervals. */
  function MergeBusy(busy: seq<Interval>): seq<Interval> {
    if busy == [] then []
    else
      var s := Sort(busy);
      SortPermutes(busy);
      assert |s| == |multiset(s)| == |multiset(busy)| == |busy|;
      MergeLoop([s[0]], s[1..])
  }

  lemma {:induction false} LoopSeparated(acc: seq<Interval>, rest: seq<Interval>)
    requires acc != [] && Separated(acc) && SortedByStart(rest)
    requires rest != [] ==> Last(acc).start <= rest[0].start
    ensures Separated(MergeLoop(acc, rest))
    decreases |rest|
  {
    if rest != [] {
      var next := Absorb(acc, rest[0]);
      assert Separated(next) by {
        var n := |acc|;
        if rest[0].start < Last(acc).end {
          forall i, j | 0 <= i < j < |next| ensures next[i].start <= next[j].start {
            if j == n - 1 { assert next[j].start == acc[n - 1].start; } else { assert next[j] == acc[j]; }
            assert next[i] == acc[i];
          }
          forall i | 0 <= i < |next| - 1 ensures next[i].end <= next[i + 1].start {
            assert next[i] == acc[i];
            assert next[i + 1].start == acc[i + 1].start;
          }
        }
      }
      LoopSeparated(next, rest[1..]);
    }
  }

  lemma AbsorbEndpoints(acc: seq<Interval>, cur: Interval)
    requires acc != []
    ensures Starts(Absorb(acc, cur)) <= Starts(acc) + {cur.start}
    ensures Ends(Absorb(acc, cur)) <= Ends(acc) + {cur.end}
  {
    var last := Last(acc);
    var init := acc[..|acc| - 1];
    assert acc == init + [last];
    StartsEndsAppend(init, [last]);
    if cur.start < last.end {
      StartsEndsAppend(init, [Interval(last.start, Max(last.end, cur.end))]);
    } else {
      StartsEndsAppend(acc, [cur]);
    }
  }

  lemma {:induction false} LoopEndpoints(acc: seq<Interval>, rest: seq<Interval>)
    requires acc != []
    ensures Starts(MergeLoop(acc, rest)) <= Starts(acc) + Starts(rest)
    ensures Ends(MergeLoop(acc, rest)) <= Ends(acc) + Ends(rest)
    decreases |rest|
  {
    if rest != [] {
      var next := Absorb(acc, rest[0]);
      LoopEndpoints(next, rest[1..]);
      AbsorbEndpoints(acc, rest[0]);
      assert rest == [rest[0]] + rest[1..];
      StartsEndsAppend([rest[0]], rest[1..]);
    }
  }

  /** `x` lies within some interval of `s`. */
  predicate InSome(x: Interval, s: seq<Interval>) {
    exists j :: 0 <= j < |s| && Within(x, s[j])
  }

  lemma AbsorbContains(acc: seq<Interval>, cur: Interval)
    requires acc != [] && Last(acc).start <= cur.start
    ensures forall j :: 0 <= j < |acc| ==> InSome(acc[j], Absorb(acc, cur))
    ensures InSome(cur, Absorb(acc, cur))
  {
    var next := Absorb(acc, cur);
    var n := |acc|;
    forall j | 0 <= j < n ensures InSome(acc[j], next) {
      if j < n - 1 {
        assert next[j] == acc[j];
        assert Within(acc[j], next[j]);
      } else {
        assert Within(acc[j], next[j]);
      }
    }
    if cur.start < Last(acc).end {
      assert Within(cur, next[n - 1]);
    } else {
      assert Within(cur, next[n]);
    }
  }

  /** Every interval fed to the scan ends up inside some merged interval. */
  lemma {:induction false} LoopContains(acc: seq<Interval>, rest: seq<Interval>)
    requires acc != []
    requires rest != [] ==> Last(acc).start <= rest[0].start
    requires SortedByStart(rest)
    ensures forall j :: 0 <= j < |acc| ==> InSome(acc[j], MergeLoop(acc, rest))
    ensures forall j :: 0 <= j < |rest| ==> InSome(rest[j], MergeLoop(acc, rest))
    decreases |rest|
  {
    if rest == [] {
      forall j | 0 <= j < |acc| ensures InSome(acc[j], acc) {
        assert Within(acc[j], acc[j]);
      }
    } else {
      var next := Absorb(acc, rest[0]);
      var r := MergeLoop(acc, rest);
      LoopContains(next, rest[1..]);
      AbsorbContains(acc, rest[0]);
      forall j | 0 <= j < |acc| ensures InSome(acc[j], r) {
        InSomeTrans(acc[j], next, r);
      }
      forall j | 0 <= j < |rest| ensures InSome(rest[j], r) {
        if j == 0 {
          InSomeTrans(rest[0], next, r);
        } else {
          assert rest[j] == rest[1..][j - 1];
        }
      }
    }
  }

  /** Lying inside some interval is transitive across two lists. */
  lemma InSomeTrans(x: Interval, s: seq<Interval>, t: seq<Interval>)
    requires InSome(x, s)
    requires forall k :: 0 <= k < |s| ==> InSome(s[k], t)
    ensures InSome(x, t)
  {
    var k :| 0 <= k < |s| && Within(x, s[k]);
    var m :| 0 <= m < |t| && Within(s[k], t[m]);
    assert Within(x, t[m]);
  }

  lemma CoveredAppend(a: seq<Interval>, b: seq<Interval>, p: int)
    ensures Covered(a + b, p) <==> Covered(a, p) || Covered(b, p)
  {
    if Covered(a + b, p) {
      var i :| 0 <= i < |a + b| && (a + b)[i].start <= p < (a + b)[i].end;
      if i >= |a| { assert b[i - |a|] == (a + b)[i]; } else { assert a[i] == (a + b)[i]; }
    }
    if Covered(a, p) {
      var i :| 0 <= i < |a| && a[i].start <= p < a[i].end;
      assert (a + b)[i] == a[i];
    }
    if Covered(b, p) {
      var i :| 0 <= i < |b| && b[i].start <= p < b[i].end;
      assert (a + b)[i + |a|] == b[i];
    }
  }

  lemma CoveredSingle(x: Interval, p: int)
    ensures Covered([x], p) <==> x.start <= p < x.end
  {
    assert [x][0] == x;
  }

  lemma AbsorbCovers(acc: seq<Interval>, cur: Interval, p: int)
    requires acc != [] && Last(acc).start <= cur.start
    ensures Covered(Absorb(acc, cur), p) <==> Covered(acc, p) || Covered([cur], p)
  {
    var last := Last(acc);
    var init := acc[..|acc| - 1];
    assert acc == init + [last];
    CoveredAppend(init, [last], p);
    if cur.start < last.end {
      var grown := Interval(last.start, Max(last.end, cur.end));
      CoveredAppend(init, [grown], p);
      CoveredSingle(grown, p);
      CoveredSingle(last, p);
      CoveredSingle(cur, p);
    } else {
      CoveredAppend(acc, [cur], p);
    }
  }

  /** The scan covers exactly the time points its inputs cover. */
  lemma {:induction false} LoopCovers(acc: seq<Interval>, rest: seq<Interval>, p: int)
    requires acc != []
    requires rest != [] ==> Last(acc).start <= rest[0].start
    requires SortedByStart(rest)
    ensures Covered(MergeLoop(acc, rest), p) <==> Covered(acc + rest, p)
    decreases |rest|
  {
    if rest == [] {
      assert acc + rest == acc;
    } else {
      var next := Absorb(acc, rest[0]);
      AbsorbCovers(acc, rest[0], p);
      if rest[1..] != [] {
        assert Last(next).start <= rest[1].start;
      }
      LoopCovers(next, rest[1..], p);
      CoveredAppend(next, rest[1..], p);
      CoveredAppend(acc, rest, p);
      assert rest == [rest[0]] + rest[1..];
      CoveredAppend([rest[0]], rest[1..], p);
    }
  }

  lemma {:induction false} LoopShrinks(acc: seq<Interval>, rest: seq<Interval>)
    requires acc != []
    ensures |MergeLoop(acc, rest)| <= |acc| + |rest|
    decreases |rest|
  {
    if rest != [] {
      LoopShrinks(Absorb(acc, rest[0]), rest[1..]);
    }
  }

  /** What the merger promises: the result is sorted with no residual
      overlap (touching neighbours allowed), it is empty exactly when the
      input is, it has no more intervals than the input, every input interval
      lies within a merged one, every merged start and end is an input start
      and end, and the merged set covers exactly the time points the inputs do. */
  lemma MergeSpec(busy: seq<Interval>)
    ensures var m := MergeBusy(busy);
      && (m == [] <==> busy == [])
      && Separated(m)
      && |m| <= |busy|
      && (forall j :: 0 <= j < |busy| ==> InSome(busy[j], m))
      && Starts(m) <= Starts(busy)
      && Ends(m) <= Ends(busy)
      && (forall p :: Covered(m, p) <==> Covered(busy, p))
  {
    if busy != [] {
      MergeShape(busy);
      MergeEndpoints(busy);
      MergeContains(busy);
      MergeCovers(busy);
    }
  }

  /** The sorted list split as the scan consumes it. */
  lemma SortedSplit(busy: seq<Interval>)
    requires busy != []
    ensures |Sort(busy)| == |busy|
    ensures SortedByStart(Sort(busy)[1..])
    ensures |busy| > 1 ==> Last([Sort(busy)[0]]).start <= Sort(busy)[1..][0].start
    ensures MergeBusy(busy) == MergeLoop([Sort(busy)[0]], Sort(busy)[1..])
    ensures multiset(Sort(busy)) == multiset(busy)
  {
    var s := Sort(busy);
    SortPermutes(busy);
    SortSorted(busy);
    assert |s| == |multiset(s)| == |multiset(busy)| == |busy|;
  }

  /** Every interval ends after it starts. */
  predicate Proper(s: seq<Interval>) {
    forall i :: 0 <= i < |s| ==> s[i].start < s[i].end
  }

  lemma {:induction false} LoopProper(acc: seq<Interval>, rest: seq<Interval>)
    requires acc != [] && Proper(acc) && Proper(rest)
    ensures Proper(MergeLoop(acc, rest))
    decreases |rest|
  {
    if rest != [] {
      var next := Absorb(acc, rest[0]);
      forall i | 0 <= i < |next| ensures next[i].start < next[i].end {
        if i < |acc| - 1 { assert next[i] == acc[i]; }
      }
      forall i | 0 <= i < |rest| - 1 ensures rest[1..][i].start < rest[1..][i].end {
        assert rest[1..][i] == rest[i + 1];
      }
      LoopProper(next, rest[1..]);
    }
  }

  /** Merging intervals that end after they start gives such intervals. */
  lemma MergeProper(busy: seq<Interval>)
    requires Proper(busy)
    ensures Proper(MergeBusy(busy))
  {
    if busy != [] {
      var s := Sort(busy);
      SortPermutes(busy);
      forall i | 0 <= i < |s| ensures s[i].start < s[i].end {
        assert s[i] in multiset(busy);
        var j :| 0 <= j < |busy| && busy[j] == s[i];
      }
      LoopProper([s[0]], s[1..]);
    }
  }

  lemma MergeShape(busy: seq<Interval>)
    requires busy != []
    ensures MergeBusy(busy) != [] && Separated(MergeBusy(busy)) && |MergeBusy(busy)| <= |busy|
  {
    var s := Sort(busy);
    SortedSplit(busy);
    LoopSeparated([s[0]], s[1..]);
    LoopShrinks([s[0]], s[1..]);
  }

  lemma MergeEndpoints(busy: seq<Interval>)
    requires busy != []
    ensures Starts(MergeBusy(busy)) <= Starts(busy) && Ends(MergeBusy(busy)) <= Ends(busy)
  {
    var s := Sort(busy);
    SortedSplit(busy);
    LoopEndpoints([s[0]], s[1..]);
    StartsEndsAppend([s[0]], s[1..]);
    assert s == [s[0]] + s[1..];
    SamePoints(s, busy);
  }

  lemma MergeContains(busy: seq<Interval>)
    requires busy != []
    ensures forall j :: 0 <= j < |busy| ==> InSome(busy[j], MergeBusy(busy))
  {
    var s := Sort(busy);
    var m := MergeBusy(busy);
    SortedSplit(busy);
    LoopContains([s[0]], s[1..]);
    forall j | 0 <= j < |busy| ensures InSome(busy[j], m) {
      assert busy[j] in multiset(s);
      var k :| 0 <= k < |s| && s[k] == busy[j];
      if k > 0 { assert s[k] == s[1..][k - 1]; }
    }
  }

  lemma MergeCovers(busy: seq<Interval>)
    requires busy != []
    ensures forall p :: Covered(MergeBusy(busy), p) <==> Covered(busy, p)
  {
    var s := Sort(busy);
    SortedSplit(busy);
    SamePoints(s, busy);
    assert s == [s[0]] + s[1..];
    forall p ensures Covered(MergeBusy(busy), p) <==> Covered(busy, p) {
      LoopCovers([s[0]], s[1..], p);
    }
  }

  /** Two arrangements of the same intervals share starts, ends and points. */
  lemma SamePoints(a: seq<Interval>, b: seq<Interval>)
    requires multiset(a) == multiset(b)
    ensures Starts(a) == Starts(b) && Ends(a) == Ends(b)
    ensures forall p :: Covered(a, p) <==> Covered(b, p)
  {
    forall x, y | (x, y) == (a, b) || (x, y) == (b, a)
      ensures Starts(x) <= Starts(y) && Ends(x) <= Ends(y)
      ensures forall p :: Covered(x, p) ==> Covered(y, p)
    {
      forall i | 0 <= i < |x| ensures exists k :: 0 <= k < |y| && y[k] == x[i] {
        assert x[i] in multiset(y);
      }
    }
  }

  /** The examples of the merge policy: overlap merges, touching does not. */
  lemma MergeExamples()
    ensures MergeBusy([Interval(32400, 36000), Interval(34200, 39600)]) == [Interval(32400, 39600)]
    ensures MergeBusy([Interval(36000, 39600), Interval(32400, 36000)])
         == [Interval(32400, 36000), Interval(36000, 39600)]
    ensures MergeBusy([]) == []
  {
  }
}

=== FILE: scheduler.dfy ===
/** The meeting-slot engine end to end (`_find_available_slots`) and the
    search window its caller `recommend_meeting_time` sets up. */
module Scheduler {
  import opened Basics
  import opened Clock
  import opened Intervals
  import opened Events
  import opened Merge
  import opened SlotWalk
  import opened WalkCompleteness
  import opened Diversifier

  /** The longest meeting the 09:00-22:00 window can hold, in minutes. */
  const LongestMeeting: int := (WindowEndHour - WindowStartHour) * 60

  /** The search window of `recommend_meeting_time`: from midnight of the
      start instant's date, `days` whole days on. */
  function SearchWindow(start: int, days: int): (r: (int, int))
    ensures r.0 % DaySeconds == 0 && r.1 % DaySeconds == 0
    ensures r.0 <= start < r.0 + DaySeconds
    ensures days >= 1 ==> r.0 + DaySeconds <= r.1
    ensures Day(r.1) - Day(r.0) == days
  {
    var from := Midnight(start);
    (from, from + days * DaySeconds)
  }

  /** Every slot the walk finds, from 09:00 of the first date, over the merged
      busy list. */
  function Candidates(busy: seq<Interval>, searchStart: int, searchEnd: int, minutes: int): seq<Interval> {
    Walk(MergeBusy(busy), AtHour(searchStart, WindowStartHour), searchEnd, minutes)
  }

  /** The recommendations for a list of busy intervals. */
  function Recommend(busy: seq<Interval>, searchStart: int, searchEnd: int, minutes: int): seq<Interval> {
    Diversify(Candidates(busy, searchStart, searchEnd, minutes))
  }

  /** `_find_available_slots` as written: normalise the bundle, then
      recommend. A timestamp that does not parse aborts the call. */
  function FindAvailableSlots(bundle: Bundle, searchStart: int, searchEnd: int, minutes: int)
    : (r: Result<seq<Interval>, string>)
    ensures r.Failure? <==> BusyIntervals(bundle).Failure?
    ensures r.Failure? ==> r.error == MalformedTimestamp
    ensures r.Success? ==> |r.value| <= MaxRecommendations
    ensures r.Success? ==> forall x :: x in r.value ==> InBusinessHours(x, minutes)
  {
    NormalizeFailure(BundleEvents(bundle));
    match BusyIntervals(bundle)
    case Failure(e) => Failure(e)
    case Success(busy) =>
      var recs := Recommend(busy, searchStart, searchEnd, minutes);
      DiversifyBounds(Candidates(busy, searchStart, searchEnd, minutes));
      Success(recs)
  }

  // ---------------------------------------------------------------------
  // The corrected engine: the walk re-tests a clamped cursor
  // ---------------------------------------------------------------------

  function CandidatesRetest(busy: seq<Interval>, searchStart: int, searchEnd: int, minutes: int): seq<Interval> {
    WalkRetest(MergeBusy(busy), AtHour(searchStart, WindowStartHour), searchEnd, minutes)
  }

  function RecommendRetest(busy: seq<Interval>, searchStart: int, searchEnd: int, minutes: int): seq<Interval> {
    Diversify(CandidatesRetest(busy, searchStart, searchEnd, minutes))
  }

  /** The engine with the corrected walk; every recommendation is free. */
  function FindAvailableSlotsRetest(bundle: Bundle, searchStart: int, searchEnd: int, minutes: int)
    : (r: Result<seq<Interval>, string>)
    ensures r.Failure? <==> BusyIntervals(bundle).Failure?
    ensures r.Success? ==> |r.value| <= MaxRecommendations
    ensures r.Success? ==> forall x :: x in r.value ==> FreeOf(x, BusyIntervals(bundle).value)
  {
    match BusyIntervals(bundle)
    case Failure(e) => Failure(e)
    case Success(busy) =>
      RetestAllFree(busy, searchStart, searchEnd, minutes);
      DiversifyBounds(CandidatesRetest(busy, searchStart, searchEnd, minutes));
      Success(RecommendRetest(busy, searchStart, searchEnd, minutes))
  }

  // ---------------------------------------------------------------------
  // Properties
  // ---------------------------------------------------------------------

  /** Normalisation fails only on an unparsable timestamp. */
  lemma {:induction false} NormalizeFailure(events: seq<RawEvent>)
    ensures Normalize(events).Failure? ==> Normalize(events).error == MalformedTimestamp
  {
    if events != [] {
      NormalizeFailure(events[1..]);
    }
  }

  /** A slot clear of every merged interval is clear of every raw one. */
  lemma FreeOfMerged(s: Interval, busy: seq<Interval>)
    requires FreeOf(s, MergeBusy(busy))
    ensures FreeOf(s, busy)
  {
    MergeSpec(busy);
    var m := MergeBusy(busy);
    forall i | 0 <= i < |busy| ensures !(s.start < busy[i].end && s.end > busy[i].start) {
      var j :| 0 <= j < |m| && Within(busy[i], m[j]);
    }
  }

  /** Merging keeps every end regular: merged ends are raw ends. */
  lemma MergedEndsRegular(busy: seq<Interval>)
    requires RegularEnds(busy)
    ensures RegularEnds(MergeBusy(busy))
  {
    if busy != [] {
      MergeEndpoints(busy);
      var m := MergeBusy(busy);
      forall i | 0 <= i < |m| ensures Regular(m[i].end) {
        assert m[i].end in Ends(m);
        var j :| 0 <= j < |busy| && busy[j].end == m[i].end;
      }
    }
  }

  /** When no busy interval ends before 09:00 or in the last half hour of its
      date, the 09:00 clamp never fires: the engine as written and the
      corrected engine agree, and every recommendation is clear of every busy
      interval, 09:00 slots included. */
  lemma CandidatesAgree(busy: seq<Interval>, searchStart: int, searchEnd: int, minutes: int)
    requires RegularEnds(busy)
    ensures Candidates(busy, searchStart, searchEnd, minutes) == CandidatesRetest(busy, searchStart, searchEnd, minutes)
    ensures Recommend(busy, searchStart, searchEnd, minutes) == RecommendRetest(busy, searchStart, searchEnd, minutes)
    ensures forall x :: x in Recommend(busy, searchStart, searchEnd, minutes) ==> FreeOf(x, busy)
  {
    AtHourFacts(searchStart, WindowStartHour);
    MergedEndsRegular(busy);
    WalkAgrees(MergeBusy(busy), AtHour(searchStart, WindowStartHour), searchEnd, minutes);
    RetestAllFree(busy, searchStart, searchEnd, minutes);
  }

  /** Conversely, over intervals that end after they start, a non-empty slot
      free of the raw busy list is free of the merged list. */
  lemma FreeOfRaw(x: Interval, busy: seq<Interval>)
    requires x.start < x.end && Proper(busy) && FreeOf(x, busy)
    ensures FreeOf(x, MergeBusy(busy))
  {
    MergeSpec(busy);
    MergeProper(busy);
    var m := MergeBusy(busy);
    forall j | 0 <= j < |m| ensures !(x.start < m[j].end && x.end > m[j].start) {
      if x.start < m[j].end && x.end > m[j].start {
        var p := Max(x.start, m[j].start);
        assert Covered(m, p);
        assert false;
      }
    }
  }

  /** The first cursor of a window starting at midnight is 09:00 of that
      date, on a whole minute and no later than any business-hours time of
      the window. */
  lemma FirstCursor(searchStart: int, s: int)
    requires searchStart % DaySeconds == 0 && searchStart <= s && Hour(s) >= WindowStartHour
    ensures AtHour(searchStart, WindowStartHour) % MinuteSeconds == 0
    ensures AtHour(searchStart, WindowStartHour) <= s
  {
    MidnightAtHour(searchStart, WindowStartHour);
    var d := searchStart / DaySeconds;
    assert searchStart == d * DaySeconds;
    ShiftKeepsSeconds(0, d * 1440 + WindowStartHour * 60);
    SplitTime(s);
    Monotone(searchStart, s);
    assert Day(searchStart) == d;
  }

  /** Completeness of the engine as written: for a window starting at
      midnight and intervals that end after they start on whole minutes, every
      meeting that fits at a whole minute of the window gets a candidate
      starting less than 30 minutes before it, so the recommendations are
      not empty. */
  lemma CandidatesFind(busy: seq<Interval>, searchStart: int, searchEnd: int, minutes: int, s: int)
    returns (i: int)
    requires searchStart % DaySeconds == 0 && searchStart <= s < searchEnd
    requires minutes > 0 && Proper(busy) && WholeMinuteEnds(busy) && FitsAt(busy, s, minutes)
    ensures 0 <= i < |Candidates(busy, searchStart, searchEnd, minutes)|
    ensures s - StepSeconds < Candidates(busy, searchStart, searchEnd, minutes)[i].start <= s
    ensures Recommend(busy, searchStart, searchEnd, minutes) != []
  {
    var m := MergeBusy(busy);
    var t := AtHour(searchStart, WindowStartHour);
    MergedFits(busy, s, minutes);
    FirstCursor(searchStart, s);
    i := WalkFinds(m, t, searchEnd, minutes, s);
    DiversifyBounds(Candidates(busy, searchStart, searchEnd, minutes));
  }

  /** The same for the corrected engine. */
  lemma CandidatesRetestFind(busy: seq<Interval>, searchStart: int, searchEnd: int, minutes: int, s: int)
    returns (i: int)
    requires searchStart % DaySeconds == 0 && searchStart <= s < searchEnd
    requires minutes > 0 && Proper(busy) && WholeMinuteEnds(busy) && FitsAt(busy, s, minutes)
    ensures 0 <= i < |CandidatesRetest(busy, searchStart, searchEnd, minutes)|
    ensures s - StepSeconds < CandidatesRetest(busy, searchStart, searchEnd, minutes)[i].start <= s
    ensures RecommendRetest(busy, searchStart, searchEnd, minutes) != []
  {
    var m := MergeBusy(busy);
    var t := AtHour(searchStart, WindowStartHour);
    MergedFits(busy, s, minutes);
    FirstCursor(searchStart, s);
    i := WalkRetestFinds(m, t, searchEnd, minutes, s);
    DiversifyBounds(CandidatesRetest(busy, searchStart, searchEnd, minutes));
  }

  /** A fitting slot still fits against the merged list, whose ends are
      whole minutes too. */
  lemma MergedFits(busy: seq<Interval>, s: int, minutes: int)
    requires minutes > 0 && Proper(busy) && WholeMinuteEnds(busy) && FitsAt(busy, s, minutes)
    ensures WholeMinuteEnds(MergeBusy(busy)) && FitsAt(MergeBusy(busy), s, minutes)
  {
    FreeOfRaw(Interval(s, s + minutes * MinuteSeconds), busy);
    var m := MergeBusy(busy);
    if busy != [] {
      MergeEndpoints(busy);
      forall j | 0 <= j < |m| ensures m[j].end % MinuteSeconds == 0 {
        assert m[j].end in Ends(m);
      }
    }
  }

  /** A slot inside the business window is at most 780 minutes long. */
  lemma BusinessHoursBound(s: Interval, minutes: int)
    requires InBusinessHours(s, minutes)
    ensures minutes <= LongestMeeting
  {
    HourOffset(s.start);
  }

  /** A slot of the as-written engine for a window of whole dates: of the
      requested length inside 09:00-22:00 of one date, starting within the
      window, clear of every busy interval when it does not start at 09:00,
      and clear of every busy interval when no busy interval ends where the
      clamp could fire. */
  predicate WellPlaced(x: Interval, busy: seq<Interval>, searchStart: int, searchEnd: int, minutes: int) {
    && InBusinessHours(x, minutes)
    && searchStart + WindowStartHour * HourSeconds <= x.start < searchEnd
    && (!AtOpening(x.start) ==> FreeOf(x, busy))
    && (RegularEnds(busy) ==> FreeOf(x, busy))
  }

  /** The as-written walk over a window of whole dates gives chronological,
      well-placed slots. */
  lemma CandidatesWellFormed(busy: seq<Interval>, searchStart: int, searchEnd: int, minutes: int)
    requires searchStart % DaySeconds == 0 && searchEnd % DaySeconds == 0
    ensures var c := Candidates(busy, searchStart, searchEnd, minutes);
      && Chronological(c)
      && forall i :: 0 <= i < |c| ==> WellPlaced(c[i], busy, searchStart, searchEnd, minutes)
  {
    MidnightAtHour(searchStart, WindowStartHour);
    var w := Walk(MergeBusy(busy), searchStart + WindowStartHour * HourSeconds, searchEnd, minutes);
    assert Candidates(busy, searchStart, searchEnd, minutes) == w;
    WalkBeforeEnd(MergeBusy(busy), searchStart + WindowStartHour * HourSeconds, searchEnd, minutes);
    forall i | 0 <= i < |w| && !AtOpening(w[i].start) ensures FreeOf(w[i], busy) {
      FreeOfMerged(w[i], busy);
    }
    if RegularEnds(busy) {
      CandidatesAgree(busy, searchStart, searchEnd, minutes);
      forall i | 0 <= i < |w| ensures FreeOf(w[i], busy) {
        FreeOfMerged(w[i], busy);
      }
    }
  }

  /** What the as-written engine promises for a window of whole dates: min(9,
      n) of the n candidates, with distinct starts, the first being the
      earliest candidate, each well placed. */
  lemma RecommendWellFormed(busy: seq<Interval>, searchStart: int, searchEnd: int, minutes: int)
    requires searchStart % DaySeconds == 0 && searchEnd % DaySeconds == 0
    ensures var c := Candidates(busy, searchStart, searchEnd, minutes);
      var r := Recommend(busy, searchStart, searchEnd, minutes);
      && |r| == Min(MaxRecommendations, |c|)
      && (c != [] ==> r[0] == c[0])
      && DistinctStarts(r)
      && forall i :: 0 <= i < |r| ==> WellPlaced(r[i], busy, searchStart, searchEnd, minutes)
  {
    var c := Candidates(busy, searchStart, searchEnd, minutes);
    var r := Recommend(busy, searchStart, searchEnd, minutes);
    CandidatesWellFormed(busy, searchStart, searchEnd, minutes);
    assert DistinctStarts(c);
    DiversifyCount(c);
    DiversifyBounds(c);
    if c != [] { DiversifyFirst(c); }
    forall i | 0 <= i < |r| ensures WellPlaced(r[i], busy, searchStart, searchEnd, minutes) {
      assert r[i] in r;
      var k :| 0 <= k < |c| && c[k] == r[i];
    }
  }

  /** A meeting longer than the business window is never recommended. */
  lemma LongMeetingsNever(busy: seq<Interval>, searchStart: int, searchEnd: int, minutes: int)
    requires minutes > LongestMeeting
    ensures Recommend(busy, searchStart, searchEnd, minutes) == []
  {
    var c := Candidates(busy, searchStart, searchEnd, minutes);
    if c != [] {
      BusinessHoursBound(c[0], minutes);
    }
  }

  /** With nothing booked, the pass at 09:00 of a date emits the meeting
      starting there. */
  lemma OpeningSlot(midnight: int, minutes: int)
    requires midnight % DaySeconds == 0 && minutes <= LongestMeeting
    ensures var open := midnight + WindowStartHour * HourSeconds;
      Iterate([], open, minutes).emitted == [Interval(open, open + minutes * MinuteSeconds)]
  {
    var open := midnight + WindowStartHour * HourSeconds;
    MidnightAtHour(midnight, WindowStartHour);
    AtHourFacts(midnight, WindowStartHour);
    assert AtHour(open, WindowEndHour) == midnight + WindowEndHour * HourSeconds;
  }

  /** With nothing booked, a meeting that fits the window is first offered at
      09:00 on the first date. */
  lemma EmptyCalendar(searchStart: int, searchEnd: int, minutes: int)
    requires searchStart % DaySeconds == 0 && searchEnd > searchStart + WindowStartHour * HourSeconds
    requires minutes <= LongestMeeting
    ensures var r := Recommend([], searchStart, searchEnd, minutes);
      var open := searchStart + WindowStartHour * HourSeconds;
      |r| > 0 && r[0] == Interval(open, open + minutes * MinuteSeconds)
  {
    var open := searchStart + WindowStartHour * HourSeconds;
    MidnightAtHour(searchStart, WindowStartHour);
    assert MergeBusy([]) == [];
    OpeningSlot(searchStart, minutes);
    var it := Iterate([], open, minutes);
    var c := Candidates([], searchStart, searchEnd, minutes);
    assert c == it.emitted + Walk([], it.next, searchEnd, minutes);
    DiversifyFirst(c);
  }

  /** The corrected engine: every recommendation is clear of every busy
      interval, including those starting at 09:00. */
  lemma RetestAllFree(busy: seq<Interval>, searchStart: int, searchEnd: int, minutes: int)
    ensures forall x :: x in RecommendRetest(busy, searchStart, searchEnd, minutes) ==> FreeOf(x, busy)
  {
    var c := CandidatesRetest(busy, searchStart, searchEnd, minutes);
    DiversifyBounds(c);
    forall x | x in RecommendRetest(busy, searchStart, searchEnd, minutes) ensures FreeOf(x, busy) {
      var k :| 0 <= k < |c| && c[k] == x;
      FreeOfMerged(x, busy);
    }
  }

  // ---------------------------------------------------------------------
  // The skipped re-test after the 09:00 clamp
  // ---------------------------------------------------------------------

  /** A meeting running from 09:00 to 23:45 on the first date and one from
      09:00 to 10:00 on the second. */
  const LateBusy: seq<Interval> := [Interval(32400, 85500), Interval(118800, 122400)]

  /** With the calendar above and a one-hour meeting, the as-written engine's
      first recommendation is 09:00-10:00 on the second date, which overlaps
      the second meeting: the cursor jumps to 23:45, steps to 00:15, and the
      clamp to 09:00 is never checked against the busy list. */
  lemma ClampSkipsRetest()
    ensures var r := Recommend(LateBusy, 0, 2 * DaySeconds, 60);
      |r| > 0 && r[0] == Interval(118800, 122400) && !FreeOf(r[0], LateBusy)
    ensures !RegularEnds(LateBusy)
  {
    assert MergeBusy(LateBusy) == LateBusy;
    var w := Walk(LateBusy, 87300, 2 * DaySeconds, 60);
    assert Iterate(LateBusy, 87300, 60) == Iteration(Advance(118800), [Interval(118800, 122400)]);
    assert w == [Interval(118800, 122400)] + Walk(LateBusy, Advance(118800), 2 * DaySeconds, 60);
    assert Iterate(LateBusy, 85500, 60) == Iteration(87300, []);
    assert Walk(LateBusy, 85500, 2 * DaySeconds, 60) == w;
    assert Iterate(LateBusy, 32400, 60) == Iteration(85500, []);
    var c := Candidates(LateBusy, 0, 2 * DaySeconds, 60);
    assert c == w;
    DiversifyFirst(c);
  }

  /** The corrected engine on the same calendar first offers 10:00-11:00 on
      the second date, right after the second meeting. */
  lemma RetestFixesClamp()
    ensures var r := RecommendRetest(LateBusy, 0, 2 * DaySeconds, 60);
      |r| > 0 && r[0] == Interval(122400, 126000) && FreeOf(r[0], LateBusy)
  {
    assert MergeBusy(LateBusy) == LateBusy;
    var w := WalkRetest(LateBusy, 122400, 2 * DaySeconds, 60);
    assert IterateRetest(LateBusy, 122400, 60) == Iteration(Advance(122400), [Interval(122400, 126000)]);
    assert w == [Interval(122400, 126000)] + WalkRetest(LateBusy, Advance(122400), 2 * DaySeconds, 60);
    assert IterateRetest(LateBusy, 118800, 60) == Iteration(122400, []);
    assert WalkRetest(LateBusy, 118800, 2 * DaySeconds, 60) == w;
    assert IterateRetest(LateBusy, 87300, 60) == Iteration(118800, []);
    assert WalkRetest(LateBusy, 87300, 2 * DaySeconds, 60) == w;
    assert IterateRetest(LateBusy, 85500, 60) == Iteration(87300, []);
    assert WalkRetest(LateBusy, 85500, 2 * DaySeconds, 60) == w;
    assert IterateRetest(LateBusy, 32400, 60) == Iteration(85500, []);
    var c := CandidatesRetest(LateBusy, 0, 2 * DaySeconds, 60);
    assert c == w;
    DiversifyFirst(c);
  }
}

=== FILE: security.dfy ===
/** The claim check of `get_current_user_id` once the token is decoded: pick
    the user id among `userId`, `id` and `sub`, reject a missing id or an
    expired token, and convert the id with Python's `int`. Decoding and
    signature checking are a parameter; the clock is a parameter. */
module Security {
  import opened Basics

  const InvalidTokenMessage: string := "Invalid token"
  const NoUserIdMessage: string := "Invalid token: user_id not found"
  const ExpiredMessage: string := "Token has expired or invalid"

  /** Microseconds per second: `datetime.now()` carries microseconds. */
  const Micro: int := 1000000

  /** A claim value as JSON decoding gives it. `Null` stands for JSON `null`
      and for a missing key alike, since `dict.get` answers `None` for both;
      `Compound` is an array or object, of which only the size matters. */
  datatype Claim = Null | Bool(b: bool) | Int(i: int) | Str(s: string) | Compound(size: nat)

  /** Python truthiness of a claim value. */
  predicate Truthy(c: Claim) {
    match c
    case Null => false
    case Bool(b) => b
    case Int(i) => i != 0
    case Str(s) => s != []
    case Compound(n) => n > 0
  }

  /** Python `a or b`: the first operand when truthy, else the second. */
  function PyOr(a: Claim, b: Claim): (r: Claim)
    ensures Truthy(a) ==> r == a
    ensures !Truthy(a) ==> r == b
  {
    if Truthy(a) then a else b
  }

  /** `payload.get(key)`. */
  function Get(payload: map<string, Claim>, key: string): Claim {
    if key in payload then payload[key] else Null
  }

  /** `payload.get("userId") or payload.get("id") or payload.get("sub")`. */
  function SelectUserId(payload: map<string, Claim>): (r: Claim)
    ensures Truthy(Get(payload, "userId")) ==> r == Get(payload, "userId")
    ensures !Truthy(Get(payload, "userId")) && Truthy(Get(payload, "id")) ==> r == Get(payload, "id")
    ensures !Truthy(Get(payload, "userId")) && !Truthy(Get(payload, "id")) ==> r == Get(payload, "sub")
  {
    PyOr(PyOr(Get(payload, "userId"), Get(payload, "id")), Get(payload, "sub"))
  }

  /** The answer of the dependency: the user id, a 401 with its detail, or
      an exception the handler does not catch (a 500), named by its type. */
  datatype Outcome = Authorized(id: int) | Unauthorized(detail: string) | ServerError(exception: string)

  predicate IsDigit(c: char) {
    '0' <= c <= '9'
  }

  /** The digit part Python's `int` accepts in base 10: digits, with single
      underscores allowed between two digits. */
  predicate DigitRun(s: string) {
    && |s| > 0 && IsDigit(s[0]) && IsDigit(s[|s| - 1])
    && (forall k :: 0 <= k < |s| ==> IsDigit(s[k]) || s[k] == '_')
    && (forall k :: 0 <= k < |s| - 1 ==> !(s[k] == '_' && s[k + 1] == '_'))
  }

  /** The number the digits of `s` spell, underscores skipped. */
  function DigitsValue(s: string): nat {
    if s == [] then 0
    else if IsDigit(s[|s| - 1]) then DigitsValue(s[..|s| - 1]) * 10 + (s[|s| - 1] as int - '0' as int)
    else DigitsValue(s[..|s| - 1])
  }

  /** Python `int(s)` for a string: surrounding whitespace, an optional sign,
      then a digit run; anything else raises `ValueError`. */
  function ParseInt(s: string): (r: Option<int>)
    ensures r.Some? ==> Strip(s) != []
    ensures r.Some? && r.value < 0 ==> Strip(s)[0] == '-'
  {
    var t := Strip(s);
    if |t| > 0 && (t[0] == '+' || t[0] == '-') then
      if DigitRun(t[1..]) then
        var v: int := DigitsValue(t[1..]);
        Some(if t[0] == '-' then -v else v)
      else None
    else if DigitRun(t) then Some(DigitsValue(t))
    else None
  }

  function DigitChar(d: int): char
    requires 0 <= d < 10
  {
    ('0' as int + d) as char
  }

  /** Python `str(n)` for a natural number. */
  function ShowNat(n: nat): (r: string)
    ensures |r| > 0
    ensures forall k :: 0 <= k < |r| ==> IsDigit(r[k])
  {
    if n < 10 then [DigitChar(n)] else ShowNat(n / 10) + [DigitChar(n % 10)]
  }

  /** Python `str(n)`. */
  function ShowInt(n: int): (r: string)
    ensures n >= 0 ==> r == ShowNat(n)
    ensures n < 0 ==> r == "-" + ShowNat(-n)
  {
    if n < 0 then "-" + ShowNat(-n) else ShowNat(n)
  }

  /** The decimal digits of `n` spell `n` back. */
  lemma {:induction false} ShowNatValue(n: nat)
    ensures DigitRun(ShowNat(n))
    ensures DigitsValue(ShowNat(n)) == n
  {
    var s := ShowNat(n);
    if n >= 10 {
      ShowNatValue(n / 10);
      assert s[..|s| - 1] == ShowNat(n / 10);
      assert s[|s| - 1] == DigitChar(n % 10);
    }
  }

  /** A string with no whitespace at either end is its own strip. */
  lemma StripUnchanged(s: string)
    requires s != [] && !IsSpace(s[0]) && !IsSpace(s[|s| - 1])
    ensures Strip(s) == s
  {
    assert StripLeft(s) == s;
  }

  /** A digit run is no whitespace at either end and carries no sign. */
  lemma DigitRunEnds(s: string)
    requires DigitRun(s)
    ensures !IsSpace(s[0]) && !IsSpace(s[|s| - 1]) && s[0] != '+' && s[0] != '-'
  {
  }

  /** `int(str(n)) == n`: converting an integer id to text and back gives
      the same id. */
  lemma ParseShowInt(n: int)
    ensures ParseInt(ShowInt(n)) == Some(n)
  {
    if n < 0 {
      var d := ShowNat(-n);
      ShowNatValue(-n);
      DigitRunEnds(d);
      var s := "-" + d;
      assert s[|s| - 1] == d[|d| - 1];
      StripUnchanged(s);
      assert s[1..] == d;
    } else {
      var d := ShowNat(n);
      ShowNatValue(n);
      DigitRunEnds(d);
      StripUnchanged(d);
    }
  }

  /** `datetime.fromtimestamp(exp)` for the claim: a number of seconds, with
      `True` and `False` as 1 and 0; text and compound values raise
      `TypeError`. */
  function ExpSeconds(c: Claim): (r: Result<int, string>)
    ensures r.Success? <==> c.Int? || c.Bool?
    ensures r.Failure? ==> r.error == "TypeError"
    ensures c.Int? ==> r == Success(c.i)
  {
    match c
    case Int(i) => Success(i)
    case Bool(b) => Success(if b then 1 else 0)
    case _ => Failure("TypeError")
  }

  /** Python `int(value)` for the selected id. */
  function ToInt(c: Claim): (r: Result<int, string>)
    ensures c.Int? ==> r == Success(c.i)
    ensures c.Str? ==> (r.Success? <==> ParseInt(c.s).Some?)
    ensures c.Compound? || c.Null? ==> r == Failure("TypeError")
  {
    match c
    case Int(i) => Success(i)
    case Bool(b) => Success(if b then 1 else 0)
    case Str(s) => if ParseInt(s).Some? then Success(ParseInt(s).value) else Failure("ValueError")
    case _ => Failure("TypeError")
  }

  /** The token has expired: its expiry instant lies strictly before now,
      given in microseconds. An expiry equal to now is still valid. */
  predicate Expired(expSeconds: int, nowMicros: int) {
    expSeconds * Micro < nowMicros
  }

  /** `get_current_user_id` after `jwt.decode`: `decoded` is the claim map,
      or `None` when decoding raised `JWTError`. */
  function CurrentUserId(decoded: Option<map<string, Claim>>, nowMicros: int): (r: Outcome)
    ensures decoded.None? ==> r == Unauthorized(InvalidTokenMessage)
    ensures decoded.Some? && SelectUserId(decoded.value).Null? ==> r == Unauthorized(NoUserIdMessage)
    ensures decoded.Some? && !SelectUserId(decoded.value).Null? && Get(decoded.value, "exp").Null? ==>
      r == Unauthorized(ExpiredMessage)
    ensures (decoded.Some? && !SelectUserId(decoded.value).Null?
             && ExpSeconds(Get(decoded.value, "exp")).Success?
             && Expired(ExpSeconds(Get(decoded.value, "exp")).value, nowMicros)) ==>
      r == Unauthorized(ExpiredMessage)
    ensures r.Unauthorized? ==>
      r.detail == InvalidTokenMessage || r.detail == NoUserIdMessage || r.detail == ExpiredMessage
  {
    match decoded
    case None => Unauthorized(InvalidTokenMessage)
    case Some(payload) =>
      var userId := SelectUserId(payload);
      var exp := Get(payload, "exp");
      if userId.Null? then Unauthorized(NoUserIdMessage)
      else if exp.Null? then Unauthorized(ExpiredMessage)
      else
        match ExpSeconds(exp)
        case Failure(e) => ServerError(e)
        case Success(secs) =>
          if Expired(secs, nowMicros) then Unauthorized(ExpiredMessage)
          else
            match ToInt(userId)
            case Failure(e) => ServerError(e)
            case Success(id) => Authorized(id)
  }

  /** A caller is let in exactly when the token decodes, some id claim is
      present, the expiry is a number not before now, and the selected id
      converts to the integer returned. */
  lemma AuthorizedSpec(decoded: Option<map<string, Claim>>, nowMicros: int, id: int)
    ensures CurrentUserId(decoded, nowMicros) == Authorized(id) <==>
      && decoded.Some?
      && !SelectUserId(decoded.value).Null?
      && ExpSeconds(Get(decoded.value, "exp")).Success?
      && !Expired(ExpSeconds(Get(decoded.value, "exp")).value, nowMicros)
      && ToInt(SelectUserId(decoded.value)) == Success(id)
  {
  }

  /** A payload without any id claim is refused for that reason, whatever its
      expiry says: the id is checked first. */
  lemma MissingIdFirst(payload: map<string, Claim>, exp1: Claim, exp2: Claim, nowMicros: int)
    requires Get(payload, "userId").Null? && Get(payload, "id").Null? && Get(payload, "sub").Null?
    ensures CurrentUserId(Some(payload["exp" := exp1]), nowMicros) == Unauthorized(NoUserIdMessage)
    ensures CurrentUserId(Some(payload["exp" := exp2]), nowMicros) == Unauthorized(NoUserIdMessage)
  {
    assert Get(payload["exp" := exp1], "userId") == Get(payload, "userId");
    assert Get(payload["exp" := exp1], "id") == Get(payload, "id");
    assert Get(payload["exp" := exp1], "sub") == Get(payload, "sub");
    assert Get(payload["exp" := exp2], "userId") == Get(payload, "userId");
    assert Get(payload["exp" := exp2], "id") == Get(payload, "id");
    assert Get(payload["exp" := exp2], "sub") == Get(payload, "sub");
  }

  /** The expiry boundary: a token expiring at this very second is accepted
      while the clock reads the whole second, and refused one microsecond
      later or whenever it expired a second earlier. */
  lemma ExpiryBoundary(id: int, now: int)
    ensures CurrentUserId(Some(map["userId" := Int(id), "exp" := Int(now)]), now * Micro)
      == (if id == 0 then Unauthorized(NoUserIdMessage) else Authorized(id))
    ensures id != 0 ==>
      CurrentUserId(Some(map["userId" := Int(id), "exp" := Int(now)]), now * Micro + 1)
        == Unauthorized(ExpiredMessage)
    ensures id != 0 ==>
      CurrentUserId(Some(map["userId" := Int(id), "exp" := Int(now - 1)]), now * Micro)
        == Unauthorized(ExpiredMessage)
  {
    assert (now - 1) * Micro < now * Micro;
  }

  /** Only a `None` id is refused: a present but falsy last candidate, such
      as a `sub` of 0, becomes the user id, and an empty `sub` string raises
      `ValueError` instead of giving 401. */
  lemma FalsySubPassesCheck(now: int)
    ensures CurrentUserId(Some(map["sub" := Int(0), "exp" := Int(now)]), now * Micro) == Authorized(0)
    ensures CurrentUserId(Some(map["sub" := Bool(false), "exp" := Int(now)]), now * Micro) == Authorized(0)
    ensures CurrentUserId(Some(map["sub" := Str(""), "exp" := Int(now)]), now * Micro) == ServerError("ValueError")
  {
    assert ParseInt("") == None;
  }

  /** A string id, as a token issued with a textual subject carries, is the
      integer it spells. */
  lemma TextualIdAccepted(n: int, now: int)
    ensures CurrentUserId(Some(map["sub" := Str(ShowInt(n)), "exp" := Int(now)]), now * Micro) == Authorized(n)
  {
    ParseShowInt(n);
    assert ShowInt(n) != [];
  }

  /** The id claims' precedence: a truthy `userId` decides the id whatever
      `id` and `sub` hold. */
  lemma UserIdTakesPrecedence(payload: map<string, Claim>, other: Claim, nowMicros: int)
    requires Truthy(Get(payload, "userId"))
    ensures CurrentUserId(Some(payload), nowMicros) == CurrentUserId(Some(payload["sub" := other]), nowMicros)
    ensures CurrentUserId(Some(payload), nowMicros) == CurrentUserId(Some(payload["id" := other]), nowMicros)
  {
    assert Get(payload["sub" := other], "userId") == Get(payload, "userId");
    assert Get(payload["id" := other], "userId") == Get(payload, "userId");
    assert Get(payload["sub" := other], "exp") == Get(payload, "exp");
    assert Get(payload["id" := other], "exp") == Get(payload, "exp");
  }
}

=== FILE: walk.dfy ===
/** The slot walk: a cursor moves through the search window, jumping over
    busy intervals and emitting the meeting slots that fit inside the
    business window (third stage of `_find_available_slots`). That a slot
    near every fitting one is emitted is proved in `WalkCompleteness`. */
module SlotWalk {
  import opened Basics
  import opened Clock
  import opened Intervals

  /** The end of the first busy interval, in list order, that collides with a
      meeting of `minutes` starting at `t`; `None` when none collides. */
  function FirstCollision(busy: seq<Interval>, t: int, minutes: int): (r: Option<int>)
    ensures r.None? <==> forall i :: 0 <= i < |busy| ==> !Collides(t, minutes, busy[i])
    ensures r.Some? ==> t < r.value
    ensures r.Some? ==>
      exists i :: (0 <= i < |busy| && Collides(t, minutes, busy[i])
        && r.value == busy[i].end && forall j :: 0 <= j < i ==> !Collides(t, minutes, busy[j]))
  {
    if busy == [] then None
    else if Collides(t, minutes, busy[0]) then Some(busy[0].end)
    else
      var r := FirstCollision(busy[1..], t, minutes);
      assert forall i :: 1 <= i < |busy| ==> busy[i] == busy[1..][i - 1];
      if r.Some? then
        var i :| 0 <= i < |busy[1..]| && Collides(t, minutes, busy[1..][i])
          && r.value == busy[1..][i].end && forall j :: 0 <= j < i ==> !Collides(t, minutes, busy[1..][j]);
        assert Collides(t, minutes, busy[i + 1]);
        r
      else r
  }

  /** A slot the walk may emit: the requested length, starting no earlier
      than 09:00 and ending no later than 22:00 (seconds kept) of its date. */
  predicate InBusinessHours(s: Interval, minutes: int) {
    && s.end - s.start == minutes * MinuteSeconds
    && Hour(s.start) >= WindowStartHour
    && s.end <= AtHour(s.start, WindowEndHour)
  }

  /** A start the 09:00 clamp can produce: exactly 09:00 on its date,
      up to seconds. */
  predicate AtOpening(t: int) {
    MinuteOfDay(t) == WindowStartHour * 60
  }

  /** A cursor before 09:00 moves to 09:00 of the same date. */
  function Clamp(t: int): (r: int)
    ensures t <= r && Hour(r) >= WindowStartHour && Day(r) == Day(t)
    ensures r % MinuteSeconds == t % MinuteSeconds
    ensures r != t ==> AtOpening(r)
  {
    AtHourFacts(t, WindowStartHour);
    if Hour(t) < WindowStartHour then
      AtHourAdvances(t, WindowStartHour);
      AtHour(t, WindowStartHour)
    else t
  }

  /** Thirty minutes on, rolling over to 09:00 of the next date once the
      hour reaches 22. */
  function Advance(t: int): (r: int)
    ensures t < r
    ensures r % MinuteSeconds == t % MinuteSeconds
    ensures Hour(t + StepSeconds) < WindowEndHour ==> r == t + StepSeconds
    ensures Hour(t + StepSeconds) >= WindowEndHour ==>
      Day(r) == Day(t + StepSeconds) + 1 && AtOpening(r)
  {
    var u := t + StepSeconds;
    ShiftKeepsSeconds(t, StepSeconds / MinuteSeconds);
    if Hour(u) >= WindowEndHour then
      NextDayAfter(u, WindowStartHour);
      ShiftKeepsSeconds(u, DaySeconds / MinuteSeconds);
      AtHourFacts(u + DaySeconds, WindowStartHour);
      AtHour(u + DaySeconds, WindowStartHour)
    else u
  }

  /** What one pass of the loop body does: where the cursor goes next and
      which slots, if any, it emits. */
  datatype Iteration = Iteration(next: int, emitted: seq<Interval>)

  /** One pass of the loop body as the source writes it: jump past the first
      colliding busy interval, else clamp to 09:00 and emit the slot when it
      ends by 22:00, then advance. The clamp does not re-test collisions. */
  function Iterate(busy: seq<Interval>, t: int, minutes: int): (r: Iteration)
    ensures t < r.next
    ensures |r.emitted| <= 1
    ensures FirstCollision(busy, t, minutes).Some? ==>
      r == Iteration(FirstCollision(busy, t, minutes).value, [])
    ensures forall s :: s in r.emitted ==>
      && InBusinessHours(s, minutes)
      && t <= s.start < r.next
      && Day(s.start) == Day(t)
      && (Hour(t) >= WindowStartHour ==> s.start == t && FreeOf(s, busy))
      && (Hour(t) < WindowStartHour ==> AtOpening(s.start))
    ensures Hour(t) >= WindowStartHour ==> r == IterateRetest(busy, t, minutes)
    ensures FirstCollision(busy, t, minutes).None? ==>
      && r.next == Advance(Clamp(t))
      && (r.emitted != [] <==> Clamp(t) + minutes * MinuteSeconds <= AtHour(t, WindowEndHour))
      && (r.emitted != [] ==> r.emitted[0].start == Clamp(t))
  {
    match FirstCollision(busy, t, minutes)
    case Some(jump) => Iteration(jump, [])
    case None =>
      var s := Clamp(t);
      var dayEnd := AtHour(t, WindowEndHour);
      var end := s + minutes * MinuteSeconds;
      AtHourFacts(t, WindowEndHour);
      assert AtHour(s, WindowEndHour) == dayEnd;
      Iteration(Advance(s), if end <= dayEnd then [Interval(s, end)] else [])
  }

  /** The corrected loop body: after clamping to 09:00 it goes back to the
      top of the loop, so the clamped cursor is checked for collisions too. */
  function IterateRetest(busy: seq<Interval>, t: int, minutes: int): (r: Iteration)
    ensures t < r.next
    ensures |r.emitted| <= 1
    ensures forall s :: s in r.emitted ==>
      && InBusinessHours(s, minutes)
      && t <= s.start < r.next
      && Day(s.start) == Day(t)
      && FreeOf(s, busy)
    ensures FirstCollision(busy, t, minutes).Some? ==>
      r == Iteration(FirstCollision(busy, t, minutes).value, [])
    ensures FirstCollision(busy, t, minutes).None? && Hour(t) < WindowStartHour ==>
      r == Iteration(AtHour(t, WindowStartHour), [])
    ensures FirstCollision(busy, t, minutes).None? && Hour(t) >= WindowStartHour ==>
      && r.next == Advance(t)
      && (r.emitted != [] <==> t + minutes * MinuteSeconds <= AtHour(t, WindowEndHour))
      && (r.emitted != [] ==> r.emitted[0].start == t)
  {
    match FirstCollision(busy, t, minutes)
    case Some(jump) => Iteration(jump, [])
    case None =>
      if Hour(t) < WindowStartHour then
        AtHourAdvances(t, WindowStartHour);
        Iteration(AtHour(t, WindowStartHour), [])
      else
        var end := t + minutes * MinuteSeconds;
        Iteration(Advance(t), if end <= AtHour(t, WindowEndHour) then [Interval(t, end)] else [])
  }

  /** A cursor the 09:00 clamp leaves alone now and after one `Advance`:
      at or after 09:00 and before 23:30 of its date. */
  predicate Regular(t: int) {
    Hour(t) >= WindowStartHour && t % DaySeconds < DaySeconds - StepSeconds
  }

  /** Every busy interval ends at a regular instant, so no jump past one can
      leave the cursor where the clamp would fire. */
  predicate RegularEnds(busy: seq<Interval>) {
    forall i :: 0 <= i < |busy| ==> Regular(busy[i].end)
  }

  /** Stepping from a regular cursor gives a regular cursor: either half an
      hour later on the same date, before 22:00, or 09:00 of the next date. */
  lemma AdvanceRegular(t: int)
    requires Regular(t)
    ensures Regular(Advance(t))
  {
    var u := t + StepSeconds;
    SplitTime(t);
    SplitTime(u);
    assert u % DaySeconds == t % DaySeconds + StepSeconds;
    if Hour(u) >= WindowEndHour {
      AtHourFacts(u + DaySeconds, WindowStartHour);
    }
    SplitTime(Advance(t));
  }

  /** Over busy intervals with regular ends, one pass from a regular cursor
      leaves the cursor regular. */
  lemma IterateRegular(busy: seq<Interval>, t: int, minutes: int)
    requires Regular(t) && RegularEnds(busy)
    ensures Regular(Iterate(busy, t, minutes).next)
  {
    if FirstCollision(busy, t, minutes).None? {
      AdvanceRegular(t);
    }
  }

  /** Every candidate slot from cursor `t` up to the window end `searchEnd`,
      as the source's `while test_time < search_end` loop produces them. */
  function Walk(busy: seq<Interval>, t: int, searchEnd: int, minutes: int): (r: seq<Interval>)
    ensures forall i :: 0 <= i < |r| ==> InBusinessHours(r[i], minutes) && t <= r[i].start
    ensures Chronological(r)
    ensures forall i :: 0 <= i < |r| && !AtOpening(r[i].start) ==> FreeOf(r[i], busy)
    decreases searchEnd - t
  {
    if t >= searchEnd then []
    else
      var it := Iterate(busy, t, minutes);
      var rest := Walk(busy, it.next, searchEnd, minutes);
      if it.emitted == [] then rest
      else
        var s := it.emitted[0];
        assert s in it.emitted;
        [s] + rest
  }

  /** The walk with the corrected loop body: every slot is collision-free. */
  function WalkRetest(busy: seq<Interval>, t: int, searchEnd: int, minutes: int): (r: seq<Interval>)
    ensures forall i :: 0 <= i < |r| ==> InBusinessHours(r[i], minutes) && t <= r[i].start
    ensures Chronological(r)
    ensures forall i :: 0 <= i < |r| ==> FreeOf(r[i], busy)
    decreases searchEnd - t
  {
    if t >= searchEnd then []
    else
      var it := IterateRetest(busy, t, minutes);
      var rest := WalkRetest(busy, it.next, searchEnd, minutes);
      if it.emitted == [] then rest
      else
        var s := it.emitted[0];
        assert s in it.emitted;
        [s] + rest
  }

  /** With a midnight as the window end, every slot of the walk starts
      before it. */
  lemma {:induction false} WalkBeforeEnd(busy: seq<Interval>, t: int, searchEnd: int, minutes: int)
    requires searchEnd % DaySeconds == 0
    ensures forall i :: 0 <= i < |Walk(busy, t, searchEnd, minutes)| ==>
      Walk(busy, t, searchEnd, minutes)[i].start < searchEnd
    decreases searchEnd - t
  {
    if t < searchEnd {
      var it := Iterate(busy, t, minutes);
      var rest := Walk(busy, it.next, searchEnd, minutes);
      WalkBeforeEnd(busy, it.next, searchEnd, minutes);
      if it.emitted != [] {
        var s := it.emitted[0];
        assert s in it.emitted;
        SameDayBefore(t, s.start, searchEnd);
        assert Walk(busy, t, searchEnd, minutes) == [s] + rest;
      }
    }
  }

  /** The same for the corrected walk. */
  lemma {:induction false} WalkRetestBeforeEnd(busy: seq<Interval>, t: int, searchEnd: int, minutes: int)
    requires searchEnd % DaySeconds == 0
    ensures forall i :: 0 <= i < |WalkRetest(busy, t, searchEnd, minutes)| ==>
      WalkRetest(busy, t, searchEnd, minutes)[i].start < searchEnd
    decreases searchEnd - t
  {
    if t < searchEnd {
      var it := IterateRetest(busy, t, minutes);
      var rest := WalkRetest(busy, it.next, searchEnd, minutes);
      WalkRetestBeforeEnd(busy, it.next, searchEnd, minutes);
      if it.emitted != [] {
        var s := it.emitted[0];
        assert s in it.emitted;
        SameDayBefore(t, s.start, searchEnd);
        assert WalkRetest(busy, t, searchEnd, minutes) == [s] + rest;
      }
    }
  }

  /** When the cursor starts regular and every busy interval ends at a regular
      instant, the clamp never fires, and the walk as written yields exactly
      the slots of the corrected walk, every one of them collision-free. */
  lemma {:induction false} WalkAgrees(busy: seq<Interval>, t: int, searchEnd: int, minutes: int)
    requires Regular(t) && RegularEnds(busy)
    ensures Walk(busy, t, searchEnd, minutes) == WalkRetest(busy, t, searchEnd, minutes)
    decreases searchEnd - t
  {
    if t < searchEnd {
      IterateRegular(busy, t, minutes);
      WalkAgrees(busy, Iterate(busy, t, minutes).next, searchEnd, minutes);
    }
  }

  // ---------------------------------------------------------------------
  // Completeness: a slot that fits is found, up to the 30-minute grid
  // ---------------------------------------------------------------------

  /** Every busy interval ends on a whole minute. */
  predicate WholeMinuteEnds(busy: seq<Interval>) {
    forall i :: 0 <= i < |busy| ==> busy[i].end % MinuteSeconds == 0
  }

  /** A meeting could start at `s`: on a whole minute, inside the business
      window of its date and clear of every busy interval. */
  predicate FitsAt(busy: seq<Interval>, s: int, minutes: int) {
    && s % MinuteSeconds == 0
    && InBusinessHours(Interval(s, s + minutes * MinuteSeconds), minutes)
    && FreeOf(Interval(s, s + minutes * MinuteSeconds), busy)
  }

  /** The hypotheses of the completeness lemmas: a whole-minute cursor at or
      before a fitting slot that starts before the window end. */
  predicate Searching(busy: seq<Interval>, t: int, searchEnd: int, minutes: int, s: int) {
    && minutes > 0 && t % MinuteSeconds == 0 && WholeMinuteEnds(busy)
    && t <= s < searchEnd && FitsAt(busy, s, minutes)
  }
}

=== FILE: webreader.dfy ===
/** The fixed-size text split of `fetch_text_chunks` and the error wrapper of
    `read_web_page`. Fetching and cleaning the page is a parameter. */
module WebReader {
  import opened Basics

  /** The chunk size `read_web_page` uses. */
  const DefaultChunkSize: int := 8000

  const ReadErrorPrefix: string := "오류: 웹 페이지를 읽는 중 문제가 발생했습니다: "

  /** What `range` raises for a zero step. */
  const ZeroStepMessage: string := "range() arg 3 must not be zero"

  /** The chunks starting at offsets `i`, `i + size`, ... below `|text|`. */
  function ChunksFrom(text: string, size: int, i: nat): seq<string>
    requires size > 0
    decreases |text| - i
  {
    if i >= |text| then []
    else [text[i..Min(i + size, |text|)]] + ChunksFrom(text, size, i + size)
  }

  /** `[text[i:i+size] for i in range(0, len(text), size)]`: a zero size
      raises, a negative one gives an empty range. */
  function Chunks(text: string, size: int): (r: Result<seq<string>, string>)
    ensures r.Failure? <==> size == 0
    ensures size < 0 ==> r == Success([])
  {
    if size == 0 then Failure(ZeroStepMessage)
    else if size < 0 then Success([])
    else Success(ChunksFrom(text, size, 0))
  }

  function Concat(parts: seq<string>): string {
    if parts == [] then "" else parts[0] + Concat(parts[1..])
  }

  /** `k` is the ceiling of `n / size` for a non-negative `n`: the least
      count of `size`-long pieces that covers `n`. */
  predicate CeilOf(k: int, n: int, size: int) {
    0 <= k && n <= k * size && (k == 0 || (k - 1) * size < n)
  }

  /** The chunks glue back to the text from offset `i`. */
  lemma {:induction false} ChunksConcat(text: string, size: int, i: nat)
    requires size > 0 && i <= |text|
    ensures Concat(ChunksFrom(text, size, i)) == text[i..]
    decreases |text| - i
  {
    if i < |text| {
      var j := Min(i + size, |text|);
      ChunksConcat(text, size, j);
      if i + size < |text| {
        assert ChunksFrom(text, size, i + size) == ChunksFrom(text, size, j);
      } else {
        assert ChunksFrom(text, size, i + size) == [];
        assert text[j..] == [];
      }
      assert text[i..] == text[i..j] + text[j..];
    }
  }

  /** There are ceil((|text| - i) / size) chunks from offset `i`. */
  lemma {:induction false} ChunksCount(text: string, size: int, i: nat)
    requires size > 0 && i <= |text|
    ensures CeilOf(|ChunksFrom(text, size, i)|, |text| - i, size)
    decreases |text| - i
  {
    var k := |ChunksFrom(text, size, i)|;
    if i < |text| {
      if i + size < |text| {
        ChunksCount(text, size, i + size);
        assert k * size == (k - 1) * size + size;
        assert (k - 1) * size == (k - 2) * size + size;
      } else {
        assert ChunksFrom(text, size, i + size) == [];
        assert k == 1;
      }
    }
  }

  /** Chunk `k` from offset `i` is the slice at `o`, the offset `k` chunks
      further on, cut at the end of the text. */
  lemma {:induction false} ChunkAtOffset(text: string, size: int, i: nat, k: nat, o: int)
    requires size > 0 && k < |ChunksFrom(text, size, i)|
    requires o == i + k * size
    ensures o < |text|
    ensures ChunksFrom(text, size, i)[k] == text[o..Min(o + size, |text|)]
    decreases k
  {
    var rest := ChunksFrom(text, size, i + size);
    assert ChunksFrom(text, size, i) == [text[i..Min(i + size, |text|)]] + rest;
    if k > 0 {
      assert ChunksFrom(text, size, i)[k] == rest[k - 1];
      MulStep(k, size);
      ChunkAtOffset(text, size, i + size, k - 1, o);
    }
  }

  /** Chunk `k` from offset `i` is the slice at `i + k * size`, cut at the
      end of the text. */
  lemma ChunkAt(text: string, size: int, i: nat, k: nat)
    requires size > 0 && k < |ChunksFrom(text, size, i)|
    ensures i + k * size < |text|
    ensures ChunksFrom(text, size, i)[k] == text[i + k * size..Min(i + (k + 1) * size, |text|)]
  {
    var o := i + k * size;
    ChunkAtOffset(text, size, i, k, o);
    MulStep(k + 1, size);
  }

  lemma MulStep(k: int, size: int)
    ensures (k - 1) * size + size == k * size
    ensures k * size + size == (k + 1) * size
  {
  }

  /** Every chunk is non-empty and at most `size` long, and every chunk but
      the last is exactly `size` long. */
  lemma ChunkLengths(text: string, size: int)
    requires size > 0
    ensures forall k :: 0 <= k < |ChunksFrom(text, size, 0)| ==> 0 < |ChunksFrom(text, size, 0)[k]| <= size
    ensures forall k :: 0 <= k < |ChunksFrom(text, size, 0)| - 1 ==> |ChunksFrom(text, size, 0)[k]| == size
  {
    var c := ChunksFrom(text, size, 0);
    forall k | 0 <= k < |c| ensures 0 < |c[k]| <= size && (k < |c| - 1 ==> |c[k]| == size) {
      ChunkLength(text, size, k);
    }
  }

  /** The length of chunk `k`. */
  lemma ChunkLength(text: string, size: int, k: nat)
    requires size > 0 && k < |ChunksFrom(text, size, 0)|
    ensures 0 < |ChunksFrom(text, size, 0)[k]| <= size
    ensures k < |ChunksFrom(text, size, 0)| - 1 ==> |ChunksFrom(text, size, 0)[k]| == size
  {
    ChunkAt(text, size, 0, k);
    MulStep(k + 1, size);
    if k < |ChunksFrom(text, size, 0)| - 1 {
      ChunkAt(text, size, 0, k + 1);
    }
  }

  /** The split loses and reorders nothing: the chunks concatenate to the
      text, and there are ceil(|text| / size) of them. */
  lemma ChunksRoundTrip(text: string, size: int)
    requires size > 0
    ensures Chunks(text, size).Success?
    ensures Concat(Chunks(text, size).value) == text
    ensures CeilOf(|Chunks(text, size).value|, |text|, size)
  {
    ChunksConcat(text, size, 0);
    ChunksCount(text, size, 0);
  }

  /** An empty page gives no chunks. */
  lemma EmptyTextNoChunks(size: int)
    requires size != 0
    ensures Chunks("", size) == Success([])
  {
  }

  /** `read_web_page`: the chunks of the fetched text, or a single error line
      when fetching, cleaning or splitting raised. `page` is the cleaned page
      text or the message of the exception raised while producing it. */
  function ReadWebPage(page: Result<string, string>): (r: seq<string>)
    ensures page.Failure? ==> r == [ReadErrorPrefix + page.error]
    ensures page.Success? ==> Concat(r) == page.value
    ensures page.Success? ==> forall k :: 0 <= k < |r| ==> 0 < |r[k]| <= DefaultChunkSize
  {
    match page
    case Failure(msg) => [ReadErrorPrefix + msg]
    case Success(text) =>
      ChunksRoundTrip(text, DefaultChunkSize);
      ChunkLengths(text, DefaultChunkSize);
      assert Chunks(text, DefaultChunkSize).value == ChunksFrom(text, DefaultChunkSize, 0);
      Chunks(text, DefaultChunkSize).value
  }
}

=== FILE: websearch.dfy ===
/** The pure part of `advanced_web_search`: the length guard, the query
    expansion with an opposing query, collecting the hits of every query,
    de-duplication by URL with a type label, and the result cap. The search
    backend is a parameter. */
module WebSearch {
  import opened Basics

  const TooShortMessage: string := "검색할 내용을 2글자 이상 입력해주세요."
  const DrawbackSuffix: string := " 단점"
  const RebuttalSuffix: string := " 반론"
  const DrawbackWord: string := "단점"

  const NewsLabel: string := "뉴스"
  const BlogLabel: string := "블로그"
  const OtherLabel: string := "기타"

  /** One hit as the backend returns it; `None` stands for a missing key. */
  datatype Hit = Hit(title: Option<string>, url: Option<string>, content: Option<string>)

  /** One output record. */
  datatype Record = Record(title: string, url: string, content: string, kind: string)

  /** The whole answer: the guard's single error record, the filtered
      records, or the `KeyError` a hit without `url` raises. */
  datatype Answer = Rejected(message: string) | Records(records: seq<Record>) | MissingUrl

  /** The backend, with the depth, image flag and result limit of the call
      fixed: the hits for one query, or `None` when the call raises or
      returns nothing. */
  type Backend = string -> Option<seq<Hit>>

  /** The guard: an empty query, or one shorter than two characters once
      surrounding whitespace is removed. */
  predicate TooShort(query: string) {
    query == [] || |Strip(query)| < 2
  }

  /** The queries sent: the query itself and, when asked, an opposing one. */
  function Queries(query: string, includeOpposite: bool): (r: seq<string>)
    ensures 1 <= |r| <= 2 && r[0] == query
    ensures |r| == 2 <==> includeOpposite
    ensures includeOpposite && !Contains(query, DrawbackWord) ==> r[1] == query + DrawbackSuffix
    ensures includeOpposite && Contains(query, DrawbackWord) ==> r[1] == query + RebuttalSuffix
  {
    if !includeOpposite then [query]
    else [query, query + (if !Contains(query, DrawbackWord) then DrawbackSuffix else RebuttalSuffix)]
  }

  /** The hits of one query; a failing or empty search adds none. */
  function HitsOf(search: Backend, q: string): seq<Hit> {
    match search(q)
    case Some(hits) => hits
    case None => []
  }

  /** Every hit of the queries from index `i` on, in query order. */
  function CollectFrom(queries: seq<string>, search: Backend, i: nat): seq<Hit>
    decreases |queries| - i
  {
    if i >= |queries| then [] else HitsOf(search, queries[i]) + CollectFrom(queries, search, i + 1)
  }

  /** Every hit of every query, in query order. */
  function Collect(queries: seq<string>, search: Backend): seq<Hit> {
    CollectFrom(queries, search, 0)
  }

  /** The queries of `b` are read the same inside `a + b`. */
  lemma {:induction false} CollectShift(a: seq<string>, b: seq<string>, search: Backend, j: nat)
    ensures CollectFrom(a + b, search, |a| + j) == CollectFrom(b, search, j)
    decreases |b| - j
  {
    if j < |b| {
      CollectShift(a, b, search, j + 1);
      assert (a + b)[|a| + j] == b[j];
    }
  }

  lemma {:induction false} CollectFromAppend(a: seq<string>, b: seq<string>, search: Backend, i: nat)
    requires i <= |a|
    ensures CollectFrom(a + b, search, i) == CollectFrom(a, search, i) + CollectFrom(b, search, 0)
    decreases |a| - i
  {
    if i == |a| {
      CollectShift(a, b, search, 0);
    } else {
      CollectFromAppend(a, b, search, i + 1);
      assert (a + b)[i] == a[i];
      var h := HitsOf(search, a[i]);
      assert CollectFrom(a + b, search, i) == h + CollectFrom(a + b, search, i + 1);
      assert CollectFrom(a, search, i) == h + CollectFrom(a, search, i + 1);
    }
  }

  /** Collecting over two query lists is collecting over each in turn. */
  lemma CollectAppend(a: seq<string>, b: seq<string>, search: Backend)
    ensures Collect(a + b, search) == Collect(a, search) + Collect(b, search)
  {
    CollectFromAppend(a, b, search, 0);
  }

  /** A failing query contributes nothing and the others keep their hits, in
      query order. */
  lemma FailingQueryDropped(a: seq<string>, q: string, b: seq<string>, search: Backend)
    requires search(q).None?
    ensures Collect(a + [q] + b, search) == Collect(a, search) + Collect(b, search)
  {
    CollectAppend(a + [q], b, search);
    CollectAppend(a, [q], search);
    assert Collect([q], search) == HitsOf(search, q) + CollectFrom([q], search, 1) == [];
    assert Collect(a, search) + Collect([q], search) == Collect(a, search);
  }

  /** The type label of a URL. */
  function Kind(url: string): string {
    if Contains(url, "news") then NewsLabel
    else if Contains(url, "blog") then BlogLabel
    else OtherLabel
  }

  /** A URL is labelled news when it mentions "news", else blog when it
      mentions "blog", else other; the three labels are distinct. */
  lemma KindSpec(url: string)
    ensures Kind(url) == NewsLabel <==> Contains(url, "news")
    ensures Kind(url) == BlogLabel <==> !Contains(url, "news") && Contains(url, "blog")
    ensures Kind(url) == OtherLabel <==> !Contains(url, "news") && !Contains(url, "blog")
  {
    assert NewsLabel[0] != BlogLabel[0] && NewsLabel[0] != OtherLabel[0] && BlogLabel[0] != OtherLabel[0];
  }

  /** The record of a hit that has a URL: missing title and content become
      empty strings, and the URL gets its type label. */
  function ToRecord(h: Hit): Record
    requires h.url.Some?
  {
    Record(h.title.GetOr(""), h.url.value, h.content.GetOr(""), Kind(h.url.value))
  }

  predicate AllHaveUrls(hits: seq<Hit>) {
    forall i :: 0 <= i < |hits| ==> hits[i].url.Some?
  }

  /** The de-duplication loop: keep a hit whose URL is not yet seen, and
      mark its URL seen. */
  function Dedup(hits: seq<Hit>, seen: set<string>): seq<Record>
    requires AllHaveUrls(hits)
  {
    if hits == [] then []
    else
      var u := hits[0].url.value;
      if u in seen then Dedup(hits[1..], seen)
      else [ToRecord(hits[0])] + Dedup(hits[1..], seen + {u})
  }

  /** The index of the first hit with URL `u`, or `|hits|` if there is none. */
  function FirstIndex(hits: seq<Hit>, u: string): (r: int)
    ensures 0 <= r <= |hits|
    ensures r < |hits| ==> hits[r].url == Some(u)
  {
    if hits == [] then 0
    else if hits[0].url == Some(u) then 0
    else 1 + FirstIndex(hits[1..], u)
  }

  /** No hit before the first index carries `u`, and the index is `|hits|`
      exactly when no hit does. */
  lemma {:induction false} FirstIndexFirst(hits: seq<Hit>, u: string)
    ensures forall j :: 0 <= j < FirstIndex(hits, u) ==> hits[j].url != Some(u)
    ensures FirstIndex(hits, u) == |hits| <==> forall j :: 0 <= j < |hits| ==> hits[j].url != Some(u)
  {
    if hits != [] && hits[0].url != Some(u) {
      FirstIndexFirst(hits[1..], u);
      assert forall j :: 1 <= j < |hits| ==> hits[j] == hits[1..][j - 1];
    }
  }

  /** Past a first hit with another URL, first indices shift by one. */
  lemma FirstIndexTail(hits: seq<Hit>, u: string)
    requires hits != [] && hits[0].url != Some(u)
    ensures FirstIndex(hits, u) == 1 + FirstIndex(hits[1..], u)
  {
  }

  /** Each kept record is the first hit carrying its URL, and no seen URL
      is kept. */
  lemma {:induction false} DedupFirst(hits: seq<Hit>, seen: set<string>)
    requires AllHaveUrls(hits)
    ensures forall i :: 0 <= i < |Dedup(hits, seen)| ==>
      && Dedup(hits, seen)[i].url !in seen
      && FirstIndex(hits, Dedup(hits, seen)[i].url) < |hits|
      && Dedup(hits, seen)[i] == ToRecord(hits[FirstIndex(hits, Dedup(hits, seen)[i].url)])
  {
    if hits != [] {
      var u := hits[0].url.value;
      var rest := hits[1..];
      assert forall k :: 0 <= k < |rest| ==> rest[k] == hits[k + 1];
      var seen' := if u in seen then seen else seen + {u};
      DedupFirst(rest, seen');
      var tail := Dedup(rest, seen');
      var out := Dedup(hits, seen);
      var head := if u in seen then [] else [ToRecord(hits[0])];
      assert out == head + tail;
      forall i | 0 <= i < |out|
        ensures && out[i].url !in seen
                && FirstIndex(hits, out[i].url) < |hits|
                && out[i] == ToRecord(hits[FirstIndex(hits, out[i].url)])
      {
        if i >= |head| {
          var x := tail[i - |head|];
          assert out[i] == x;
          assert x.url != u;
          FirstIndexTail(hits, x.url);
          assert hits[FirstIndex(hits, x.url)] == rest[FirstIndex(rest, x.url)];
        }
      }
    }
  }

  /** The seen set after the first hit. */
  function SeenAfter(hits: seq<Hit>, seen: set<string>): set<string>
    requires hits != [] && hits[0].url.Some?
  {
    if hits[0].url.value in seen then seen else seen + {hits[0].url.value}
  }

  /** A record kept from the later hits lies one further on in the whole
      list. */
  lemma DedupTailShift(hits: seq<Hit>, seen: set<string>, k: int)
    requires hits != [] && AllHaveUrls(hits)
    requires AllHaveUrls(hits[1..]) && 0 <= k < |Dedup(hits[1..], SeenAfter(hits, seen))|
    ensures FirstIndex(hits, Dedup(hits[1..], SeenAfter(hits, seen))[k].url)
      == 1 + FirstIndex(hits[1..], Dedup(hits[1..], SeenAfter(hits, seen))[k].url)
  {
    var rest := hits[1..];
    var x := Dedup(rest, SeenAfter(hits, seen))[k];
    DedupFirst(rest, SeenAfter(hits, seen));
    assert x.url !in SeenAfter(hits, seen);
    FirstIndexTail(hits, x.url);
  }

  /** Of two kept records, the earlier one's first hit comes first. */
  lemma {:induction false} DedupOrderAt(hits: seq<Hit>, seen: set<string>, i: int, j: int)
    requires AllHaveUrls(hits)
    requires 0 <= i < j < |Dedup(hits, seen)|
    ensures FirstIndex(hits, Dedup(hits, seen)[i].url) < FirstIndex(hits, Dedup(hits, seen)[j].url)
  {
    var rest := hits[1..];
    assert AllHaveUrls(rest) by {
      forall k | 0 <= k < |rest| ensures rest[k].url.Some? {
        assert rest[k] == hits[k + 1];
      }
    }
    var seen' := SeenAfter(hits, seen);
    var tail := Dedup(rest, seen');
    var out := Dedup(hits, seen);
    if hits[0].url.value in seen {
      assert out == tail;
      DedupOrderAt(rest, seen', i, j);
      DedupTailShift(hits, seen, i);
      DedupTailShift(hits, seen, j);
    } else {
      assert out == [ToRecord(hits[0])] + tail;
      assert out[j] == tail[j - 1];
      DedupTailShift(hits, seen, j - 1);
      if i > 0 {
        DedupOrderAt(rest, seen', i - 1, j - 1);
        DedupTailShift(hits, seen, i - 1);
        assert out[i] == tail[i - 1];
      } else {
        assert FirstIndex(hits, out[i].url) == 0;
      }
    }
  }

  /** Kept records follow the order of their first hits, so no URL repeats. */
  lemma DedupOrder(hits: seq<Hit>, seen: set<string>)
    requires AllHaveUrls(hits)
    ensures forall i, j :: 0 <= i < j < |Dedup(hits, seen)| ==>
      FirstIndex(hits, Dedup(hits, seen)[i].url) < FirstIndex(hits, Dedup(hits, seen)[j].url)
  {
    forall i, j | 0 <= i < j < |Dedup(hits, seen)|
      ensures FirstIndex(hits, Dedup(hits, seen)[i].url) < FirstIndex(hits, Dedup(hits, seen)[j].url)
    {
      DedupOrderAt(hits, seen, i, j);
    }
  }

  /** Some record in `out` carries URL `u`. */
  predicate HasUrl(out: seq<Record>, u: string) {
    exists i | 0 <= i < |out| :: out[i].url == u
  }

  /** The URL of hit `k`, if not seen before, is kept. */
  lemma {:induction false} DedupCompleteAt(hits: seq<Hit>, seen: set<string>, k: int)
    requires AllHaveUrls(hits) && 0 <= k < |hits| && hits[k].url.value !in seen
    ensures HasUrl(Dedup(hits, seen), hits[k].url.value)
  {
    var u := hits[0].url.value;
    var v := hits[k].url.value;
    var rest := hits[1..];
    var out := Dedup(hits, seen);
    if v == u {
      assert out[0].url == u;
    } else {
      assert AllHaveUrls(rest) by {
        forall m | 0 <= m < |rest| ensures rest[m].url.Some? {
          assert rest[m] == hits[m + 1];
        }
      }
      assert rest[k - 1] == hits[k];
      var seen' := SeenAfter(hits, seen);
      DedupCompleteAt(rest, seen', k - 1);
      var tail := Dedup(rest, seen');
      var i :| 0 <= i < |tail| && tail[i].url == v;
      if u in seen {
        assert out == tail;
      } else {
        assert out == [ToRecord(hits[0])] + tail;
        assert out[i + 1] == tail[i];
      }
    }
  }

  /** Every URL not seen before is kept. */
  lemma DedupComplete(hits: seq<Hit>, seen: set<string>)
    requires AllHaveUrls(hits)
    ensures forall k :: 0 <= k < |hits| && hits[k].url.value !in seen ==>
      HasUrl(Dedup(hits, seen), hits[k].url.value)
  {
    forall k | 0 <= k < |hits| && hits[k].url.value !in seen
      ensures HasUrl(Dedup(hits, seen), hits[k].url.value)
    {
      DedupCompleteAt(hits, seen, k);
    }
  }

  /** `advanced_web_search` over a given backend. */
  function AdvancedWebSearch(query: string, maxResults: int, includeOpposite: bool, search: Backend): (r: Answer)
    ensures r.Rejected? <==> TooShort(query)
    ensures r.Rejected? ==> r.message == TooShortMessage
    ensures r.MissingUrl? <==>
      !TooShort(query) && !AllHaveUrls(Collect(Queries(query, includeOpposite), search))
    ensures r.Records? && maxResults >= 0 ==> |r.records| <= maxResults
  {
    if TooShort(query) then Rejected(TooShortMessage)
    else
      var hits := Collect(Queries(query, includeOpposite), search);
      if !AllHaveUrls(hits) then MissingUrl
      else Records(PyPrefix(Dedup(hits, {}), maxResults))
  }

  /** A too-short query is answered without looking at the backend. */
  lemma GuardSkipsSearch(query: string, maxResults: int, includeOpposite: bool, s1: Backend, s2: Backend)
    requires TooShort(query)
    ensures AdvancedWebSearch(query, maxResults, includeOpposite, s1)
         == AdvancedWebSearch(query, maxResults, includeOpposite, s2)
         == Rejected(TooShortMessage)
  {
  }

  /** The records answered: a prefix of the de-duplicated hits, with distinct
      URLs, each the first hit carrying its URL. */
  lemma AnswerSpec(query: string, maxResults: int, includeOpposite: bool, search: Backend)
    requires AdvancedWebSearch(query, maxResults, includeOpposite, search).Records?
    ensures var hits := Collect(Queries(query, includeOpposite), search);
      var out := AdvancedWebSearch(query, maxResults, includeOpposite, search).records;
      && AllHaveUrls(hits)
      && out <= Dedup(hits, {})
      && (forall i, j :: 0 <= i < j < |out| ==> out[i].url != out[j].url)
      && (forall i :: 0 <= i < |out| ==>
           FirstIndex(hits, out[i].url) < |hits| && out[i] == ToRecord(hits[FirstIndex(hits, out[i].url)]))
  {
    var hits := Collect(Queries(query, includeOpposite), search);
    DedupFirst(hits, {});
    DedupOrder(hits, {});
    var all := Dedup(hits, {});
    var out := AdvancedWebSearch(query, maxResults, includeOpposite, search).records;
    assert out <= all;
    forall i | 0 <= i < |out| ensures out[i] == all[i] {}
  }
}
